=== FILE: README.md ===
# TextImageView in Dafny

TextImageView is an Android image view that draws text over its image. It comes in two versions.

- The Java widget (`TextImageView.java`) draws one multi-line text.
  - A one-finger drag pans the text; the text and its rotation centre move with the pointers' focal point.
  - A pinch scales the font, kept within a minimum and a maximum size.
  - A two-finger twist rotates the text.
  - After every move, a clamp mode (UNLIMITED, ORIGIN_INSIDE, TEXT_INSIDE) pulls the text back towards the image.
  - A listener is told the text's position as a fraction of the image's size.
- The Kotlin widget (`TextImageView.kt`, `TextProperties.kt`) keeps an ordered list of text layers and one selected layer.
  - The setters and the pan, pinch and rotate gestures edit only the selected layer.
  - A touch selects the topmost layer under the finger.
  - A layer dropped on the delete button leaves the list.
  - Every edit tells the listener the new list of texts. In that list, positions are fractions of the view's size.

The model is functional. Each widget is an immutable record. Each operation is a function from the record, and the event's inputs, to the record after it, together with what the listener was told.

The foreign calls become fields of a `Host` parameter:
- glyph measurement (`Paint.getTextBounds`);
- the bounding box of a rotated rectangle (`Matrix.preRotate` + `mapRect`);
- a layer's inverse matrix applied to a touch point;
- the delete-button hit test.

Modules:

- `Wrappers`: `Option`.
- `Graphics`: points, `RectF` and `Rect`, the parts of `Paint` the widgets use, and the classes of value a Java float division yields (finite, ±infinity, NaN). Also the clamp `between` and the edge-wise union of rectangles.
- `JavaStrings`: `String.split("\n")`, including its dropping of trailing empty strings.
- `SingleTextView`: the Java widget's state, line layout, enclosing rectangle, reported position, clamp modes, setters, pinch and rotation.
- `SingleTextTouch`: the Java widget's `onTouchEvent`, both as written and corrected (see Findings), the focal point and the pan.
- `TextLayers`: `TextProperties` and its `toText` snapshot.
- `MultiTextView`: the Kotlin widget. Layers are kept in a map from identities. The list and the selection hold identities.

   The Kotlin list holds data-class objects, but each object owns a distinct `Paint`. `Paint` compares by reference, so equality and `MutableList.remove` act on identity.

Three points about the code itself shape the model:

- The Kotlin widget has no `removeText`. A touch selects a layer (`onDown`). A layer leaves the list in two ways: `setText` clears the whole list before adding its one layer, and `checkDeleted` removes the selected layer when it is dropped on the delete button. A deleted layer stays selected.
- The Java guard before the moved-listener (`TextImageView.java:235`) holds back only NaN, so infinities reach the listener; see Findings.
- Clamp containment and idempotence are proved only for an unrotated text. With a rotation, the correction the code applies is itself rotated.

## Model

| member | source | states |
|---|---|---|
| Graphics.Between | textimageview/src/main/java/com/antonionicolaspina/textimageview/TextImageView.java:172-174 | The result lies in [min, max] when that range is non-empty. A value already inside comes back unchanged. A value below gives min, and a value above gives max. An empty range (min > max) always gives min. |
| Graphics.BetweenIdempotent | textimageview/src/main/java/com/antonionicolaspina/textimageview/TextImageView.java:172-174 | Clamping a clamped value again with the same bounds changes nothing, even for an empty range. |
| Graphics.Divide | textimageview/src/main/java/com/antonionicolaspina/textimageview/TextImageView.java:374 | Java float division. The quotient is finite exactly when the divisor is nonzero, and then times the divisor it gives the dividend. 0/0 is NaN. A positive number over zero is +Infinity. |
| Graphics.PerOne | textimageview/src/main/java/com/antonionicolaspina/textimageview/TextImageView.java:374 | Each component of the per-one position is finite iff its size is nonzero. It then scales back to the pixel coordinate. It is NaN iff both the coordinate and the size are 0. |
| Graphics.PerOneCorners | textimageview/src/main/java/com/antonionicolaspina/textimageview/TextProperties.kt:21 | The origin maps to (0,0), and the far corner (w,h) maps to (1,1). |
| Graphics.Round | textimageview/src/main/java/com/antonionicolaspina/textimageview/TextImageView.kt:333 | `PointF.toPoint` rounds each coordinate to an integer within one half of it. |
| Graphics.NewPaint | textimageview/src/main/java/com/antonionicolaspina/textimageview/TextImageView.kt:181-182 | A fresh paint has the requested text size, the default typeface and black colour. |
| Graphics.Join | textimageview/src/main/java/com/antonionicolaspina/textimageview/TextImageView.java:259-262 | One step of the union covers both rectangles, and each of its edges is the matching edge of one of them. |
| Graphics.Enclose | textimageview/src/main/java/com/antonionicolaspina/textimageview/TextImageView.java:243-267 | No rectangles leave the initial empty RectF. The first rectangle is copied as is (the `0 == i` branch). |
| Graphics.EncloseBounds | textimageview/src/main/java/com/antonionicolaspina/textimageview/TextImageView.java:256-263 | The union covers every rectangle. Each of its four edges equals the matching edge of some rectangle. |
| Graphics.EncloseOffset | textimageview/src/main/java/com/antonionicolaspina/textimageview/TextImageView.java:243-267 | Moving every rectangle by the same offset moves their union by that offset. |
| JavaStrings.Pieces | textimageview/src/main/java/com/antonionicolaspina/textimageview/TextImageView.java:315 | Cutting at line feeds gives one more piece than there are line feeds, and no piece contains one. |
| JavaStrings.JoinPieces | textimageview/src/main/java/com/antonionicolaspina/textimageview/TextImageView.java:315 | Gluing the pieces back with line feeds gives the original string. |
| JavaStrings.Split | textimageview/src/main/java/com/antonionicolaspina/textimageview/TextImageView.java:315 | A string without a line feed (even an empty one) splits into itself alone. Otherwise the last line is non-empty. No line contains a line feed. The lines are a prefix of the pieces, and only empty pieces are dropped. |
| JavaStrings.SplitRejoin | textimageview/src/main/java/com/antonionicolaspina/textimageview/TextImageView.java:315 | The lines joined again, followed by one line feed per dropped piece, give back the original string. |
| JavaStrings.OnlyFeedsSplitToNothing | textimageview/src/main/java/com/antonionicolaspina/textimageview/TextImageView.java:315 | A string made only of line feeds splits into no lines at all. |
| SingleTextView.AdvanceIsSum | textimageview/src/main/java/com/antonionicolaspina/textimageview/TextImageView.java:264 | The running top advances over some lines by their total height plus one `interline*scale` gap per line. |
| SingleTextView.LineBoxAt | textimageview/src/main/java/com/antonionicolaspina/textimageview/TextImageView.java:244-264 | Line i's rectangle starts at the text's left edge and at the advance of the lines above it. It has the line's measured width and height. |
| SingleTextView.LineBoxesAt | textimageview/src/main/java/com/antonionicolaspina/textimageview/TextImageView.java:244-264 | The same, for every line at once. |
| SingleTextView.LineBoxesStack | textimageview/src/main/java/com/antonionicolaspina/textimageview/TextImageView.java:244-264 | The line rectangles stack. All start at the text's left edge with their line's measured width and height. The first starts at the given top, and each next one starts one `interline*scale` gap below the bottom of the one before it. |
| SingleTextView.LineLayout | textimageview/src/main/java/com/antonionicolaspina/textimageview/TextImageView.java:144-152 | Relative to the image, line i starts at textPosition.x. Its top is at textPosition.y plus the heights of the lines above it plus i gaps. Its size is its measured size. |
| SingleTextView.PlacedBoxes | textimageview/src/main/java/com/antonionicolaspina/textimageview/TextImageView.java:250-254 | There is one placed rectangle per line: that line's laid-out rectangle under the text's rotation about the rotation centre. |
| SingleTextView.EnclosingRect | textimageview/src/main/java/com/antonionicolaspina/textimageview/TextImageView.java:241-268 | A text without lines has the empty RectF as its enclosing rectangle. |
| SingleTextView.EnclosingBounds | textimageview/src/main/java/com/antonionicolaspina/textimageview/TextImageView.java:256-263 | The enclosing rectangle covers every placed line. Each of its edges is the matching edge of some placed line. |
| SingleTextView.EnclosingAtRestIsUnion | textimageview/src/main/java/com/antonionicolaspina/textimageview/TextImageView.java:250-254 | At rotation 0 the matrix is the identity, so the enclosing rectangle is the union of the laid-out lines. |
| SingleTextView.WidestLine | textimageview/src/main/java/com/antonionicolaspina/textimageview/TextImageView.java:326 | The result is at least every line's width, and it is some line's width. |
| SingleTextView.EnclosingAtRest | textimageview/src/main/java/com/antonionicolaspina/textimageview/TextImageView.java:241-268 | For an unrotated text, the image-local left edge is textPosition.x and the width is the widest line's width. When no line plus its gap has negative height, the top is textPosition.y. |
| SingleTextView.EnclosingLeftAtRest | textimageview/src/main/java/com/antonionicolaspina/textimageview/TextImageView.java:260 | When all lines start at the same left edge, the union starts there. |
| SingleTextView.EnclosingRightAtRest | textimageview/src/main/java/com/antonionicolaspina/textimageview/TextImageView.java:262 | When all lines start at the same left edge, the union ends at that edge plus the widest line. |
| SingleTextView.EnclosingTopAtRest | textimageview/src/main/java/com/antonionicolaspina/textimageview/TextImageView.java:259 | When lines only descend, the union's top is the first line's top. |
| SingleTextView.LineBoxesOffset | textimageview/src/main/java/com/antonionicolaspina/textimageview/TextImageView.java:244-264 | Laying the lines out from a moved corner moves every line rectangle by as much. |
| SingleTextView.BoxesMove | textimageview/src/main/java/com/antonionicolaspina/textimageview/TextImageView.java:244-264 | Moving textPosition moves every unrotated line rectangle by the same amount. |
| SingleTextView.EnclosingMoves | textimageview/src/main/java/com/antonionicolaspina/textimageview/TextImageView.java:241-268 | Moving an unrotated text moves its enclosing rectangle by the same amount. |
| SingleTextView.LocalMoves | textimageview/src/main/java/com/antonionicolaspina/textimageview/TextImageView.java:218-219 | Moving an unrotated text moves its image-local rectangle by as much and keeps that rectangle's width and height. |
| SingleTextView.TextPosition | textimageview/src/main/java/com/antonionicolaspina/textimageview/TextImageView.java:371-375 | Each component is finite iff the image has that dimension. When finite, it times the image's width or height is the image-local left or top of the enclosing rectangle. |
| SingleTextView.TextPositionExample | textimageview/src/main/java/com/antonionicolaspina/textimageview/TextImageView.java:367-375 | An unrotated text at (100,50) over a 1000x500 image reports (0.1, 0.1). |
| SingleTextView.NotifyAsWritten | textimageview/src/main/java/com/antonionicolaspina/textimageview/TextImageView.java:233-238 | The listener receives the position exactly when neither component is NaN. |
| SingleTextView.Notify | textimageview/src/main/java/com/antonionicolaspina/textimageview/TextImageView.java:233-238 | Corrected guard: the listener receives the position exactly when both components are finite, and receives those finite values. |
| SingleTextView.ClampedPosition | textimageview/src/main/java/com/antonionicolaspina/textimageview/TextImageView.java:214-231 | UNLIMITED keeps textPosition. ORIGIN_INSIDE moves the text by exactly what pulls the image-local top-left corner of its rectangle, as measured before the move, into [0, width] x [0, height] by the shortest move. A corner already inside does not move, and an empty range gives 0. TEXT_INSIDE does the same with [0, width - text width] x [0, height - text height]. Only for an unrotated text does this move put the rectangle itself there (see ReclampOriginInside and ReclampTextInside). |
| SingleTextView.Reclamp | textimageview/src/main/java/com/antonionicolaspina/textimageview/TextImageView.java:213-239 | Only textPosition changes, and it becomes ClampedPosition; UNLIMITED changes nothing. The listener hears exactly when one is registered and the image has an area. What it hears is what getTextPosition then returns. |
| SingleTextView.ReclampOriginInside | textimageview/src/main/java/com/antonionicolaspina/textimageview/TextImageView.java:217-223 | ORIGIN_INSIDE, unrotated: the new image-local left and top are the old ones clamped by `between` into [0, width] and [0, height], so they lie inside the image. |
| SingleTextView.ReclampTextInside | textimageview/src/main/java/com/antonionicolaspina/textimageview/TextImageView.java:224-230 | TEXT_INSIDE, unrotated: the block keeps its size. It ends up wholly inside the image in each dimension where it fits. Where it does not fit, it is pinned to the left or top edge. |
| SingleTextView.ReclampIdempotent | textimageview/src/main/java/com/antonionicolaspina/textimageview/TextImageView.java:213-231 | Clamping an unrotated text twice gives the same view as clamping it once, in every mode. |
| SingleTextView.ClampedIsFixed | textimageview/src/main/java/com/antonionicolaspina/textimageview/TextImageView.java:213-231 | The clamped position of an unrotated text is a fixed point of the clamp. |
| SingleTextView.ReclampDriftsWithoutLines | textimageview/src/main/java/com/antonionicolaspina/textimageview/TextImageView.java:217-222 | With no lines, the enclosing rectangle is the empty one at the view's origin. ORIGIN_INSIDE then moves the text right by the image's left offset on every call. |
| SingleTextView.InfinityPassesGuardAsWritten | textimageview/src/main/java/com/antonionicolaspina/textimageview/TextImageView.java:233-238 | Consider an unrotated UNLIMITED text below and right of the origin, over an image of size zero. reclampText leaves it where it is, and the source's NaN guard hands the listener (+Infinity, +Infinity). |
| SingleTextView.InfiniteOverNoImage | textimageview/src/main/java/com/antonionicolaspina/textimageview/TextImageView.java:371-375 | In that situation getTextPosition is (+Infinity, +Infinity). |
| SingleTextView.GuardPassesInfinity | textimageview/src/main/java/com/antonionicolaspina/textimageview/TextImageView.java:235 | The source's guard passes (+Infinity, +Infinity), and the corrected guard holds it back. |
| SingleTextView.TruncateToInt | textimageview/src/main/java/com/antonionicolaspina/textimageview/TextImageView.java:328 | The `(int)` cast rounds towards zero: the result lies within 1 of x, on zero's side. |
| SingleTextView.MeasureLines | textimageview/src/main/java/com/antonionicolaspina/textimageview/TextImageView.java:319-324 | There is one rectangle per line, and each is that line measured with the current paint. |
| SingleTextView.TotalRect | textimageview/src/main/java/com/antonionicolaspina/textimageview/TextImageView.java:316-329 | textTotalRect starts at (0,0). Its width is at least every line's width and is some line's width, or 0. Its height is the lines' heights plus the gaps between them, truncated. |
| SingleTextView.SetText | textimageview/src/main/java/com/antonionicolaspina/textimageview/TextImageView.java:311-333 | The new text is split as `split("\n")` splits it, with one rectangle per line measured with the current paint and textTotalRect their total at the current gap. The result is exactly reclampText applied to the view holding these; nothing but the text, the lines, their rectangles, the total rectangle and the position differs from before. |
| SingleTextView.SetTextKeepsSizing | textimageview/src/main/java/com/antonionicolaspina/textimageview/TextImageView.java:311-333 | setText leaves the base size, the scale and the paint alone. |
| SingleTextView.SetTypeface | textimageview/src/main/java/com/antonionicolaspina/textimageview/TextImageView.java:339-342 | The paint takes the new typeface and nothing else of it changes. The same text is split and measured again with the new paint, and the result is reclampText of that view; nothing else changes. |
| SingleTextView.SetTextColor | textimageview/src/main/java/com/antonionicolaspina/textimageview/TextImageView.java:350-353 | Only the paint's colour changes. |
| SingleTextView.SetTextSize | textimageview/src/main/java/com/antonionicolaspina/textimageview/TextImageView.java:360-365 | The scale resets to 1, and the base size and the paint's size become the new size. The same text is split and measured again with that paint, and the result is reclampText of that view; nothing else changes. |
| SingleTextView.Rescale | textimageview/src/main/java/com/antonionicolaspina/textimageview/TextImageView.java:273-275 | The new font size lies in [minSize, maxSize], or is minSize for an empty range, and equals the new scale times the base size. A pinch that stays in range multiplies the scale by its factor. |
| SingleTextView.OnScale | textimageview/src/main/java/com/antonionicolaspina/textimageview/TextImageView.java:271-280 | The gesture is always accepted, and when scaling is disabled nothing changes. When enabled, the scale and the font size become those of Rescale, and only the paint's size changes. The text is measured again and the result is reclampText of that view; the base size and everything else stay. |
| SingleTextView.OnRotation | textimageview/src/main/java/com/antonionicolaspina/textimageview/TextImageView.java:292-301 | Disabled, nothing changes. Enabled, it remembers the angle and pivots about the focal point. The rotation minus the last angle seen never changes. |
| SingleTextView.RotationTelescopes | textimageview/src/main/java/com/antonionicolaspina/textimageview/TextImageView.java:292-301 | After updates a1..ak the rotation is the starting rotation plus ak minus the angle remembered before. The last angle is ak, and the pivot is the focal point. |
| SingleTextTouch.ActionMasked | textimageview/src/main/java/com/antonionicolaspina/textimageview/TextImageView.java:182-183 | `action & ACTION_MASK` lies in [0, 256), keeps an action below 256, and differs from the action by a multiple of 256. |
| SingleTextTouch.ActionIndex | textimageview/src/main/java/com/antonionicolaspina/textimageview/TextImageView.java:186 | Used by the corrected OnTouchEvent; the source computes no pointer index here. The pointer index of a POINTER_UP or POINTER_DOWN lies in [0, 256). For a 16-bit action word it is the word's second byte. |
| SingleTextTouch.Refocus | textimageview/src/main/java/com/antonionicolaspina/textimageview/TextImageView.java:156-170 | With pointers, the focal point times the pointer count is the pointers' coordinate sums, i.e. their centroid. With none, the focal point stays where it was. |
| SingleTextTouch.RecalculateFocalPoint | textimageview/src/main/java/com/antonionicolaspina/textimageview/TextImageView.java:156-170 | The summing loop computes the arithmetic mean of the pointer coordinates, or keeps the old focal point with no pointers. |
| SingleTextTouch.SumShifted | textimageview/src/main/java/com/antonionicolaspina/textimageview/TextImageView.java:164-167 | Shifting every pointer by (dx, dy) adds n·dx and n·dy to the coordinate sums. |
| SingleTextTouch.CentroidShifted | textimageview/src/main/java/com/antonionicolaspina/textimageview/TextImageView.java:164-169 | Shifting every pointer by (dx, dy) shifts their centroid by (dx, dy). |
| SingleTextTouch.Pan | textimageview/src/main/java/com/antonionicolaspina/textimageview/TextImageView.java:195-200 | The text position and the rotation centre both move by exactly the given delta, and nothing else changes. |
| SingleTextTouch.Move | textimageview/src/main/java/com/antonionicolaspina/textimageview/TextImageView.java:189-207 | The focal point becomes the centroid, and the event is handled. With panning on, the text and the rotation centre move by the focal delta and the result is reclampText of that view; an unclamped text therefore moves by exactly the delta. With panning off, only the focal point changes. Nothing else changes. |
| SingleTextTouch.OnTouchEventAsWritten | textimageview/src/main/java/com/antonionicolaspina/textimageview/TextImageView.java:177-211 | As written: DOWN, UP and POINTER_UP refocus over every reported pointer. MOVE pans. Everything else, POINTER_DOWN included, is not handled and changes nothing. |
| SingleTextTouch.StillDown | textimageview/src/main/java/com/antonionicolaspina/textimageview/TextImageView.java:184-187 | Used by the corrected OnTouchEvent; the source removes no pointer here. After UP or POINTER_UP the lifting pointer is removed, and the rest stay, as a multiset, one fewer. Otherwise all pointers stay. |
| SingleTextTouch.OnTouchEvent | textimageview/src/main/java/com/antonionicolaspina/textimageview/TextImageView.java:177-211 | Corrected: DOWN, UP, POINTER_DOWN and POINTER_UP refocus on the pointers still down. MOVE pans. Everything else is not handled. |
| SingleTextTouch.StillPointersDoNotPan | textimageview/src/main/java/com/antonionicolaspina/textimageview/TextImageView.java:184-207 | Corrected handler: after any pointer goes down or up, a move that reports the remaining pointers in place does not pan. |
| SingleTextTouch.DragPansByDrag | textimageview/src/main/java/com/antonionicolaspina/textimageview/TextImageView.java:189-207 | Corrected handler: a move that drags the remaining pointers by (dx, dy) pans the rotation centre by (dx, dy), and an unclamped text too. |
| SingleTextTouch.PairCentroid | textimageview/src/main/java/com/antonionicolaspina/textimageview/TextImageView.java:164-169 | Pointers at (0,0) and (100,0) have their focal point at (50,0). |
| SingleTextTouch.PointerDownJumpsAsWritten | textimageview/src/main/java/com/antonionicolaspina/textimageview/TextImageView.java:183-188 | As written: a second finger landing and a move that reports both fingers in place pan the text by (50,0). |
| SingleTextTouch.PointerUpJumpsAsWritten | textimageview/src/main/java/com/antonionicolaspina/textimageview/TextImageView.java:186-187 | As written: a finger lifting and a move that reports the other one in place pan the text by (-50,0). |
| TextLayers.TextProperties.ToText | textimageview/src/main/java/com/antonionicolaspina/textimageview/TextProperties.kt:19-24 | The text, the scale factor and the rotation are copied. The position becomes position/(w, h), finite iff w (or h) is nonzero, and then scaling back gives the pixel position. |
| TextLayers.NewTextProperties | textimageview/src/main/java/com/antonionicolaspina/textimageview/TextProperties.kt:8-16 | A new layer has the given text, a fresh paint, the origin, scale 1, no rotation and empty bounds. |
| TextLayers.FractionRoundTrip | textimageview/src/main/java/com/antonionicolaspina/textimageview/TextProperties.kt:21 | A fraction scaled to pixels and read back by toText is the fraction again, when w and h are nonzero. |
| TextLayers.PixelRoundTrip | textimageview/src/main/java/com/antonionicolaspina/textimageview/TextProperties.kt:21 | A pixel position read as a fraction and scaled back is the pixel position. |
| MultiTextView.GetTexts | textimageview/src/main/java/com/antonionicolaspina/textimageview/TextImageView.kt:217-221 | There is one snapshot per listed layer, in list order, each being that layer's toText at the view's measured size. |
| MultiTextView.Announce | textimageview/src/main/java/com/antonionicolaspina/textimageview/TextImageView.kt:404 | With a listener, it is told getTexts() once. Without one, nothing is told. |
| MultiTextView.GetSelected | textimageview/src/main/java/com/antonionicolaspina/textimageview/TextImageView.kt:161 | There is a snapshot exactly when a layer is selected, and it is that layer's toText. |
| MultiTextView.TextChanged | textimageview/src/main/java/com/antonionicolaspina/textimageview/TextImageView.kt:388-405 | Only the given layer changes. It is stored with its bounds measured again, and the listener is told the new texts. |
| MultiTextView.EditSelected | textimageview/src/main/java/com/antonionicolaspina/textimageview/TextImageView.kt:121-126 | The `selectedText?.let` shape. With no selection nothing happens. Otherwise only the selected layer changes, re-measured, and the listener is told. |
| MultiTextView.ChangeText | textimageview/src/main/java/com/antonionicolaspina/textimageview/TextImageView.kt:121-126 | Without a selection nothing happens. Otherwise only the selected layer's text changes, and its bounds are measured again. The list, its order and the other layers stay. |
| MultiTextView.SetTypeface | textimageview/src/main/java/com/antonionicolaspina/textimageview/TextImageView.kt:132-137 | The same, for the selected layer's typeface. |
| MultiTextView.SetTextColor | textimageview/src/main/java/com/antonionicolaspina/textimageview/TextImageView.kt:169-174 | The same, for the selected layer's colour. |
| MultiTextView.SetPosition | textimageview/src/main/java/com/antonionicolaspina/textimageview/TextImageView.kt:139-145 | Without a selection nothing happens. Otherwise the selected layer's position becomes the fraction times the measured size, its bounds are measured again, and nothing else in that layer or the view changes. |
| MultiTextView.SetScaleFactor | textimageview/src/main/java/com/antonionicolaspina/textimageview/TextImageView.kt:147-152 | Without a selection nothing happens. Otherwise only the selected layer changes: it takes the given scale factor and its bounds are measured again, the rest of it stays. |
| MultiTextView.SetRotationDegrees | textimageview/src/main/java/com/antonionicolaspina/textimageview/TextImageView.kt:154-159 | Without a selection nothing happens. Otherwise only the selected layer changes: it takes the given rotation and its bounds are measured again, the rest of it stays. |
| MultiTextView.SetPositionRoundTrip | textimageview/src/main/java/com/antonionicolaspina/textimageview/TextImageView.kt:139-161 | With a nonzero measured size, getSelected after setPosition(p) reports position p, and everything else as before. |
| MultiTextView.AddText | textimageview/src/main/java/com/antonionicolaspina/textimageview/TextImageView.kt:180-190 | The new layer is appended and selected under a fresh identity. The earlier layers stay unchanged, and nothing else in the view changes. It holds the text, a fresh paint of the initial size, scale 1, no rotation and measured bounds. The listener is told. |
| MultiTextView.AddTextCentres | textimageview/src/main/java/com/antonionicolaspina/textimageview/TextImageView.kt:184-185 | The new layer's glyph bounds are centred on the view. |
| MultiTextView.AddTextAppends | textimageview/src/main/java/com/antonionicolaspina/textimageview/TextImageView.kt:187-189 | getTexts after addText is getTexts before it, followed by the new, selected layer's snapshot. |
| MultiTextView.SetText | textimageview/src/main/java/com/antonionicolaspina/textimageview/TextImageView.kt:112-115 | The list is cleared, then one layer is added as addText adds it. It is listed alone and selected under a fresh identity, and nothing else in the view changes. It holds the text with a fresh paint of the initial size, scale 1, no rotation, and measured bounds centred on the view. The listener is told the one-layer list. |
| MultiTextView.OnMove | textimageview/src/main/java/com/antonionicolaspina/textimageview/TextImageView.kt:232-236 | With panning on and a selection, only the selected layer changes: it moves by (−distanceX, −distanceY) and is measured again, the rest of it stays, and the listener is told. Otherwise nothing happens. |
| MultiTextView.MoveAndBack | textimageview/src/main/java/com/antonionicolaspina/textimageview/TextImageView.kt:234-235 | A move followed by the opposite move puts the selected layer back where it was. |
| MultiTextView.ClampScale | textimageview/src/main/java/com/antonionicolaspina/textimageview/TextImageView.kt:302-304 | The clamped scale times the paint's size is the requested size (scale times factor times paint size) clamped by `max(min, min(·, max))`. |
| MultiTextView.ClampScaleInRange | textimageview/src/main/java/com/antonionicolaspina/textimageview/TextImageView.kt:302-304 | A pinch whose size stays within the bounds multiplies the scale factor by exactly its factor. |
| MultiTextView.OnScale | textimageview/src/main/java/com/antonionicolaspina/textimageview/TextImageView.kt:299-309 | With scaling on and a selection, only the selected layer's scale factor and bounds change. The paint, and so its text size, is kept. Otherwise nothing happens. |
| MultiTextView.ScaleStaysInBounds | textimageview/src/main/java/com/antonionicolaspina/textimageview/TextImageView.kt:299-309 | After onScale, with a non-empty range of sizes, the selected layer is drawn at a size in [minTextSize, maxTextSize]. |
| MultiTextView.OnRotate | textimageview/src/main/java/com/antonionicolaspina/textimageview/TextImageView.kt:313-325 | With rotation on and a selection, only the selected layer changes: it turns back by the degrees since the last event and is measured again, the rest of it stays, and the listener is told. Otherwise nothing happens. |
| MultiTextView.RotationAccumulates | textimageview/src/main/java/com/antonionicolaspina/textimageview/TextImageView.kt:313-325 | Over a whole gesture the selection stays, and the selected layer turns back by the sum of the steps. |
| MultiTextView.Hit | textimageview/src/main/java/com/antonionicolaspina/textimageview/TextImageView.kt:331-333 | A touch hits a layer exactly when its inverse-mapped point lies in the layer's bounds shifted up and left by half a pixel, because `toPoint` rounds before the integer containment test. |
| MultiTextView.LastHit | textimageview/src/main/java/com/antonionicolaspina/textimageview/TextImageView.kt:330-336 | Finds nothing iff no listed layer is hit. Otherwise it finds a hit layer with no hit layer after it in the list. |
| MultiTextView.OnDown | textimageview/src/main/java/com/antonionicolaspina/textimageview/TextImageView.kt:329-339 | Only the selection can change. A touch on no layer keeps it. A touch on some listed layer selects a layer that is hit, with no hit layer after it in the list: the topmost one under the touch. |
| MultiTextView.OnSingleTapConfirmed | textimageview/src/main/java/com/antonionicolaspina/textimageview/TextImageView.kt:341-352 | The listener is told textTapped, with the selected layer's snapshot, exactly when there is a listener and a selection and the tap hits the selected layer. |
| MultiTextView.TapReportsTopmostHit | textimageview/src/main/java/com/antonionicolaspina/textimageview/TextImageView.kt:329-352 | With a listener, a touch followed by a confirmed tap at the same place reports textTapped with the snapshot of the topmost layer under it. |
| MultiTextView.FirstIndex | textimageview/src/main/java/com/antonionicolaspina/textimageview/TextImageView.kt:375 | The position of an identity's first occurrence. |
| MultiTextView.RemoveFirst | textimageview/src/main/java/com/antonionicolaspina/textimageview/TextImageView.kt:375 | `MutableList.remove` leaves a list without the identity unchanged. Otherwise it drops the first occurrence and keeps the rest in order. |
| MultiTextView.RemoveListedOnce | textimageview/src/main/java/com/antonionicolaspina/textimageview/TextImageView.kt:375 | Removing from a list without repeats leaves exactly the other identities, still without repeats. |
| MultiTextView.CheckDeleted | textimageview/src/main/java/com/antonionicolaspina/textimageview/TextImageView.kt:373-379 | Outside the delete area nothing happens. Inside it, exactly that layer leaves the list and the others keep their order. The selection is not cleared, and the listener is told. |
| MultiTextView.OnMoveBegin | textimageview/src/main/java/com/antonionicolaspina/textimageview/TextImageView.kt:270-279 | The delete area shows when deletion is enabled and a layer is selected. Nothing else changes. |
| MultiTextView.OnMoveEnd | textimageview/src/main/java/com/antonionicolaspina/textimageview/TextImageView.kt:281-294 | With the delete area showing, it hides, the selection stays, and the selected layer is checked for deletion. Otherwise nothing happens. |
| MultiTextView.EditingDeletedLayerIsInvisible | textimageview/src/main/java/com/antonionicolaspina/textimageview/TextImageView.kt:373-379 | A deleted layer stays selected. Editing it changes nothing the listener is told about. |

## Left out

- Drawing is left out: the canvas calls of `onDraw` in both widgets, the delete button's drawable and its size (`roundToInt`), the delete-button animations and `addDropShadow`. The line layout that `onDraw` repeats is `LineBoxes`.
- The Java `onDraw` also refreshes `imageRect` from the drawable's intrinsic size mapped by the image matrix (`TextImageView.java:127-136`). The model takes `imageRect` as given state and does not model that refresh or the image matrix.
- Android `Matrix` work is a host function.
  - The box around a rotated rectangle is a host function, used only for a nonzero angle.
  - The inverse map of a layer and the delete-area test are host functions.
  - The Kotlin layer's matrix is derived from its other fields after each edit, so it is not stored.
  - Clamp containment and idempotence are only stated for an unrotated text. The clamp moves textPosition while the rotation centre stays put, so with a rotation the correction is itself rotated.
- `Paint.getTextBounds` is a host function.
- Gesture detectors (`ScaleGestureDetector`, `RotationGestureDetector`, the mapbox detectors) and their event plumbing are left out. Their outputs (scale factor, angle, distances, pointer positions) are inputs. Their order within `onTouchEvent` is not modelled.
- Floats are exact reals. Single-precision rounding is not modelled; the finite / infinite / NaN outcome of a division is. Java's int arithmetic (`interline`, the `(int)` cast) is unbounded apart from the truncation towards zero.
- The Java widget's cleared text is left out. `setText(null)` stores a null text and null lines. In UNLIMITED mode without a listener, that is a working "no text" state: `reclampText` does nothing and `onDraw` returns early (`TextImageView.java:122-124`). In a clamped mode, or with a listener, `calculateEnclosingRect` dereferences the null lines (`TextImageView.java:245`) and throws a NullPointerException. Here the text is always a string, so neither the cleared state nor that exception is modelled.
- A null clamp mode (no attributes given) makes `reclampText`'s switch throw a NullPointerException. Here the clamp mode is always one of the three.
- Constructors, attribute parsing, the edit-mode sample text, and listener registration are left out. For listener registration, a `listening` flag stands in for a non-null listener.
- Java `getTextRelativeSize` and `setOnTextMovedListener` are left out: a quotient and a registration.
- SingleTextView.OnScale requires a nonzero base size. Java would divide by zero and store an infinite or NaN scale.
- MultiTextView.OnScale and the Kotlin setters rely on `Valid`, which demands a positive text size for every layer and a positive `initialTextSize`. A layer with text size 0 would get an infinite or NaN scale factor. `AddText` and `SetText` rely on the positive `initialTextSize`, so the layers they create keep that invariant. An initial size of 0 or less, which the attributes would allow, is not modelled.
- SingleTextView.EnclosingRect: its contract only states the empty case. The covering and edge properties are in `EnclosingBounds`, and the unrotated layout is in `EnclosingAtRest`.
- SingleTextView.Reclamp uses the corrected listener guard (see Findings). The source's guard is `NotifyAsWritten`.
- SingleTextView.InfinityPassesGuardAsWritten: states the guard's output for the position getTextPosition reports, not the full reclampText step.
- Kotlin `onDown`, `onMove` and `onRotate` always return true; that return value is not modelled.
- SingleTextView.Placed: at rotation 0 it returns the laid-out line rectangle as is. The source still calls `mapRect`, which also sorts the rectangle's edges. The two agree because a measured glyph rectangle has non-negative width and height, which the model does not demand of the host's `measure`.

## Findings

| source | as written | input that shows it | evidently intended | confidence | as-written member | corrected member |
|---|---|---|---|---|---|---|
| textimageview/src/main/java/com/antonionicolaspina/textimageview/TextImageView.java:183-188 | ACTION_POINTER_DOWN is not handled, so the focal point stays on the first finger. | DOWN at (0,0), then POINTER_DOWN with (0,0) and (100,0), then MOVE reporting both unmoved: the text pans by (50,0). | Refocus when a pointer goes down, so that unmoved fingers do not pan. | not executed | SingleTextTouch.PointerDownJumpsAsWritten | SingleTextTouch.StillPointersDoNotPan |
| textimageview/src/main/java/com/antonionicolaspina/textimageview/TextImageView.java:186-187 | ACTION_POINTER_UP refocuses over every reported pointer, the lifting one included. | Fingers at (0,0) and (100,0), the second lifting, then MOVE reporting (0,0): the text pans by (-50,0). | Refocus on the pointers still down. | not executed | SingleTextTouch.PointerUpJumpsAsWritten | SingleTextTouch.DragPansByDrag |
| textimageview/src/main/java/com/antonionicolaspina/textimageview/TextImageView.java:235 | Only NaN components hold the moved-listener back. | Unrotated, UNLIMITED text at a positive position over an image of size zero: the listener receives (+Infinity, +Infinity). | Only finite positions reach the listener. | not executed | SingleTextView.InfinityPassesGuardAsWritten | SingleTextView.Reclamp |

=== FILE: graphics.dfy ===
/**
 The value types of android.graphics as the text widgets use them. Coordinates
 are exact reals: Java's single-precision rounding is not modelled, but the
 quotient classes a float division can produce (finite, infinite, NaN) are,
 because the widgets inspect them.
 */
module Graphics {
  import opened Wrappers

  datatype Point = Point(x: real, y: real) {
    function Plus(dx: real, dy: real): Point {
      Point(x + dx, y + dy)
    }
  }

  /** android.graphics.RectF: real edges, no ordering imposed */
  datatype RectF = RectF(left: real, top: real, right: real, bottom: real) {

    function Width(): real {
      right - left
    }

    function Height(): real {
      bottom - top
    }

    /** RectF.offset: moves all four edges */
    function Offset(dx: real, dy: real): RectF
    {
      RectF(left + dx, top + dy, right + dx, bottom + dy)
    }

    /** Every edge of `r` lies on or inside the matching edge of this rectangle */
    predicate Covers(r: RectF) {
      left <= r.left && top <= r.top && r.right <= right && r.bottom <= bottom
    }
  }

  /** The rectangle `new RectF()` starts as */
  const EmptyRectF := RectF(0.0, 0.0, 0.0, 0.0)

  /** android.graphics.Rect: integer edges, as Paint.getTextBounds fills it */
  datatype Rect = Rect(left: int, top: int, right: int, bottom: int) {

    function Width(): int {
      right - left
    }

    function Height(): int {
      bottom - top
    }

    /** Rect.exactCenterX: (left + right) * 0.5f */
    function ExactCenterX(): real {
      (left + right) as real * 0.5
    }

    function ExactCenterY(): real {
      (top + bottom) as real * 0.5
    }

    /**
     Rect.contains(x, y): only a non-empty rectangle contains anything; its
     left and top edges are inside it, its right and bottom edges are not.
     */
    predicate Contains(x: int, y: int) {
      left < right && top < bottom && left <= x < right && top <= y < bottom
    }
  }

  /** A typeface is only passed through; it is known by an opaque handle */
  datatype Typeface = Typeface(handle: nat)

  /** The parts of android.graphics.Paint the widgets read or write */
  datatype Paint = Paint(textSize: real, typeface: Option<Typeface>, color: int)

  /** Color.BLACK (0xFF000000) as a Java int: the colour of a fresh Paint */
  const BLACK: int := -16777216

  /** A fresh `Paint(Paint.ANTI_ALIAS_FLAG)` whose text size was then set */
  function NewPaint(textSize: real): (p: Paint)
    ensures p.textSize == textSize && p.typeface == None && p.color == BLACK
  {
    Paint(textSize, None, BLACK)
  }

  /** Paint.getTextBounds: glyph measurement is a foreign call, so the host supplies it */
  type TextMeasure = (string, Paint) -> Rect

  /** The classes of value a Java float division yields */
  datatype Float = Finite(value: real) | PositiveInfinity | NegativeInfinity | NaN

  datatype FloatPoint = FloatPoint(x: Float, y: Float)

  /**
   Java's `a / b` on floats: finite for a nonzero divisor, otherwise an
   infinity signed like the dividend, or NaN for 0/0. The divisors the widgets
   use are differences and measured sizes, whose zero is +0.0.
   */
  function Divide(a: real, b: real): (q: Float)
    ensures q.Finite? <==> b != 0.0
    ensures q.Finite? ==> q.value * b == a
    ensures q.NaN? <==> a == 0.0 && b == 0.0
    ensures q.PositiveInfinity? <==> a > 0.0 && b == 0.0
  {
    if b != 0.0 then Finite(a / b)
    else if a > 0.0 then PositiveInfinity
    else if a < 0.0 then NegativeInfinity
    else NaN
  }

  /**
   A point as a per-one fraction of a size, component by component, with
   Java's float division: (0,0) stays (0,0) and (w,h) becomes (1,1).
   */
  function PerOne(p: Point, w: real, h: real): (q: FloatPoint)
    ensures q.x.Finite? <==> w != 0.0
    ensures q.y.Finite? <==> h != 0.0
    ensures q.x.Finite? ==> q.x.value * w == p.x
    ensures q.y.Finite? ==> q.y.value * h == p.y
    ensures q.x.NaN? <==> p.x == 0.0 && w == 0.0
    ensures q.y.NaN? <==> p.y == 0.0 && h == 0.0
  {
    FloatPoint(Divide(p.x, w), Divide(p.y, h))
  }

  /** The corners of the unit square */
  lemma PerOneCorners(w: real, h: real)
    requires w != 0.0 && h != 0.0
    ensures PerOne(Point(0.0, 0.0), w, h) == FloatPoint(Finite(0.0), Finite(0.0))
    ensures PerOne(Point(w, h), w, h) == FloatPoint(Finite(1.0), Finite(1.0))
  {
  }

  /** Math.round: the nearest integer, halves rounded up */
  function Round(x: real): (n: int)
    ensures n as real - 0.5 <= x < n as real + 0.5
  {
    (x + 0.5).Floor
  }

  function Min(a: real, b: real): real {
    if a <= b then a else b
  }

  function Max(a: real, b: real): real {
    if a >= b then a else b
  }

  /**
   TextImageView.between: `Math.max(Math.min(value, max), min)`. For an
   empty range (min > max) the lower bound wins.
   */
  function Between(value: real, min: real, max: real): (r: real)
    ensures min <= max ==> min <= r <= max
    ensures min <= value <= max ==> r == value
    ensures min <= max && value < min ==> r == min
    ensures min <= max && max < value ==> r == max
    ensures max < min ==> r == min
  {
    Max(Min(value, max), min)
  }

  /** Clamping a value already clamped to the same bounds changes nothing, even for an empty range */
  lemma BetweenIdempotent(value: real, min: real, max: real)
    ensures Between(Between(value, min, max), min, max) == Between(value, min, max)
  {
  }

  /** One step of the union loop of calculateEnclosingRect: edge-wise min/max */
  function Join(a: RectF, b: RectF): (u: RectF)
    ensures u.Covers(a) && u.Covers(b)
    ensures u.left == a.left || u.left == b.left
    ensures u.top == a.top || u.top == b.top
    ensures u.right == a.right || u.right == b.right
    ensures u.bottom == a.bottom || u.bottom == b.bottom
  {
    RectF(Min(a.left, b.left), Min(a.top, b.top), Max(a.right, b.right), Max(a.bottom, b.bottom))
  }

  /**
   The union of rectangles in the order the loop visits them: the first sets
   the result, each later one widens it. No rectangles leave the initial
   empty RectF.
   */
  function Enclose(rs: seq<RectF>): (u: RectF)
    ensures |rs| == 0 ==> u == EmptyRectF
    ensures |rs| == 1 ==> u == rs[0]
    decreases |rs|
  {
    if |rs| == 0 then EmptyRectF
    else if |rs| == 1 then rs[0]
    else Join(Enclose(rs[..|rs| - 1]), rs[|rs| - 1])
  }

  /** The union covers every rectangle, and each of its edges is the matching edge of one of them */
  lemma {:induction false} EncloseBounds(rs: seq<RectF>)
    ensures forall i :: 0 <= i < |rs| ==> Enclose(rs).Covers(rs[i])
    ensures |rs| > 0 ==> exists i :: 0 <= i < |rs| && Enclose(rs).left == rs[i].left
    ensures |rs| > 0 ==> exists i :: 0 <= i < |rs| && Enclose(rs).top == rs[i].top
    ensures |rs| > 0 ==> exists i :: 0 <= i < |rs| && Enclose(rs).right == rs[i].right
    ensures |rs| > 0 ==> exists i :: 0 <= i < |rs| && Enclose(rs).bottom == rs[i].bottom
    decreases |rs|
  {
    if |rs| > 1 {
      var init := rs[..|rs| - 1];
      EncloseBounds(init);
      assert forall i :: 0 <= i < |init| ==> init[i] == rs[i];
      var u, last := Enclose(init), rs[|rs| - 1];
      assert Enclose(rs) == Join(u, last);
      var l :| 0 <= l < |init| && u.left == init[l].left;
      var t :| 0 <= t < |init| && u.top == init[t].top;
      var r :| 0 <= r < |init| && u.right == init[r].right;
      var b :| 0 <= b < |init| && u.bottom == init[b].bottom;
      var n := |rs| - 1;
      var e := Join(u, last);
      if e.left == u.left { assert e.left == rs[l].left; } else { assert e.left == rs[n].left; }
      if e.top == u.top { assert e.top == rs[t].top; } else { assert e.top == rs[n].top; }
      if e.right == u.right { assert e.right == rs[r].right; } else { assert e.right == rs[n].right; }
      if e.bottom == u.bottom { assert e.bottom == rs[b].bottom; } else { assert e.bottom == rs[n].bottom; }
      forall i | 0 <= i < |rs|
        ensures e.Covers(rs[i])
      {
        if i < n {
          assert u.Covers(init[i]);
        }
      }
    } else if |rs| == 1 {
      assert Enclose(rs) == rs[0];
    }
  }

  /** Every rectangle moved by the same offset */
  function OffsetAll(rs: seq<RectF>, dx: real, dy: real): (moved: seq<RectF>)
    ensures |moved| == |rs|
    ensures forall i :: 0 <= i < |rs| ==> moved[i] == rs[i].Offset(dx, dy)
  {
    seq(|rs|, i requires 0 <= i < |rs| => rs[i].Offset(dx, dy))
  }

  /** Moving every rectangle moves their union by the same amount, as long as there is one */
  lemma {:induction false} EncloseOffset(rs: seq<RectF>, dx: real, dy: real)
    requires |rs| > 0
    ensures Enclose(OffsetAll(rs, dx, dy)) == Enclose(rs).Offset(dx, dy)
    decreases |rs|
  {
    if |rs| > 1 {
      var moved := OffsetAll(rs, dx, dy);
      var init := rs[..|rs| - 1];
      assert moved[..|moved| - 1] == OffsetAll(init, dx, dy);
      EncloseOffset(init, dx, dy);
      JoinOffset(Enclose(init), rs[|rs| - 1], dx, dy);
    }
  }

  /** Joining two moved rectangles is moving their join */
  lemma JoinOffset(a: RectF, b: RectF, dx: real, dy: real)
    ensures Join(a.Offset(dx, dy), b.Offset(dx, dy)) == Join(a, b).Offset(dx, dy)
  {
  }
}

=== FILE: java_strings.dfy ===
/**
 Java's `String.split("\n")` with its default limit of zero: split at every
 line feed, then drop the trailing empty pieces; a string without a line feed
 comes back whole, even when it is empty.
 */
module JavaStrings {

  /** The number of line feeds in `s` */
  function LineFeeds(s: string): nat {
    if |s| == 0 then 0 else (if s[0] == '\n' then 1 else 0) + LineFeeds(s[1..])
  }

  /** The pieces between line feeds, empty ones included */
  function Pieces(s: string): (ps: seq<string>)
    ensures |ps| == LineFeeds(s) + 1
    ensures forall i :: 0 <= i < |ps| ==> '\n' !in ps[i]
    decreases |s|
  {
    if |s| == 0 then [""]
    else
      var rest := Pieces(s[1..]);
      if s[0] == '\n' then [""] + rest
      else [[s[0]] + rest[0]] + rest[1..]
  }

  /** The inverse of Pieces: the pieces glued back with line feeds */
  function Join(ps: seq<string>): string
    requires |ps| > 0
    decreases |ps|
  {
    if |ps| == 1 then ps[0] else ps[0] + "\n" + Join(ps[1..])
  }

  /** n line feeds */
  function Feeds(n: nat): (s: string)
    ensures |s| == n && forall i :: 0 <= i < n ==> s[i] == '\n'
  {
    if n == 0 then "" else "\n" + Feeds(n - 1)
  }

  /** Splitting at line feeds and joining again gives the string back */
  lemma {:induction false} JoinPieces(s: string)
    ensures Join(Pieces(s)) == s
    decreases |s|
  {
    if |s| > 0 {
      JoinPieces(s[1..]);
      var rest := Pieces(s[1..]);
      if s[0] == '\n' {
        calc {
          Join(Pieces(s));
          Join([""] + rest);
          { assert ([""] + rest)[1..] == rest; }
          "" + "\n" + Join(rest);
          s;
        }
      } else {
        var ps := Pieces(s);
        assert ps[0] == [s[0]] + rest[0];
        if |rest| == 1 {
          assert Join(ps) == [s[0]] + rest[0];
        } else {
          assert ps[1..] == rest[1..];
          assert Join(rest) == rest[0] + "\n" + Join(rest[1..]);
        }
      }
    }
  }

  /** Drops the empty strings at the end of `ps` */
  function DropTrailingEmpty(ps: seq<string>): (r: seq<string>)
    ensures |r| <= |ps| && r == ps[..|r|]
    ensures forall j :: |r| <= j < |ps| ==> ps[j] == ""
    ensures |r| > 0 ==> r[|r| - 1] != ""
    decreases |ps|
  {
    if |ps| == 0 || ps[|ps| - 1] != "" then ps
    else DropTrailingEmpty(ps[..|ps| - 1])
  }

  /** String.split("\n") */
  function Split(s: string): (lines: seq<string>)
    ensures '\n' !in s ==> lines == [s]
    ensures '\n' in s ==> |lines| == 0 || lines[|lines| - 1] != ""
    ensures forall i :: 0 <= i < |lines| ==> '\n' !in lines[i]
    ensures |lines| <= |Pieces(s)| && lines == Pieces(s)[..|lines|]
    ensures forall j :: |lines| <= j < |Pieces(s)| ==> Pieces(s)[j] == ""
  {
    var ps := Pieces(s);
    if |ps| == 1 then
      NoFeedSinglePiece(s);
      ps
    else
      FeedManyPieces(s);
      DropTrailingEmpty(ps)
  }

  lemma {:induction false} NoFeedSinglePiece(s: string)
    requires |Pieces(s)| == 1
    ensures '\n' !in s && Pieces(s) == [s]
  {
    JoinPieces(s);
    assert '\n' !in Pieces(s)[0];
  }

  lemma {:induction false} FeedManyPieces(s: string)
    requires |Pieces(s)| > 1
    ensures '\n' in s
    decreases |s|
  {
    if |s| == 0 {
    } else if s[0] != '\n' {
      FeedManyPieces(s[1..]);
    }
  }

  /** Gluing a run of pieces onto a prefix of them */
  lemma {:induction false} JoinAppend(ps: seq<string>, k: nat)
    requires 0 < k < |ps|
    ensures Join(ps) == Join(ps[..k]) + "\n" + Join(ps[k..])
    decreases k
  {
    if k > 1 {
      JoinAppend(ps[1..], k - 1);
      assert ps[1..][..k - 1] == ps[..k][1..];
      assert ps[1..][k - 1..] == ps[k..];
    }
  }

  /** Pieces that are all empty join to one fewer line feeds */
  lemma {:induction false} JoinEmpties(ps: seq<string>)
    requires |ps| > 0
    requires forall j :: 0 <= j < |ps| ==> ps[j] == ""
    ensures Join(ps) == Feeds(|ps| - 1)
    decreases |ps|
  {
    if |ps| > 1 {
      JoinEmpties(ps[1..]);
    }
  }

  /**
   What split drops is only line feeds: the lines joined again, followed by
   as many line feeds as pieces were dropped, are the original string.
   */
  lemma SplitRejoin(s: string)
    requires |Split(s)| > 0
    ensures s == Join(Split(s)) + Feeds(|Pieces(s)| - |Split(s)|)
  {
    var ps := Pieces(s);
    var lines := Split(s);
    var k := |lines|;
    JoinPieces(s);
    if k < |ps| {
      assert lines == ps[..k];
      JoinAppend(ps, k);
      var rest := ps[k..];
      assert forall j :: 0 <= j < |rest| ==> rest[j] == "";
      JoinEmpties(rest);
      assert s == Join(lines) + "\n" + Feeds(|ps| - k - 1);
      OneMoreFeed(Join(lines), |ps| - k - 1);
    } else {
      assert lines == ps;
    }
  }

  lemma OneMoreFeed(a: string, n: nat)
    ensures a + "\n" + Feeds(n) == a + Feeds(n + 1)
  {
    assert Feeds(n + 1) == "\n" + Feeds(n);
  }

  /** A string of line feeds only splits into no lines at all */
  lemma OnlyFeedsSplitToNothing(n: nat)
    requires n > 0
    ensures Split(Feeds(n)) == []
  {
    var s := Feeds(n);
    assert s[0] == '\n';
    PiecesOfFeeds(n);
  }

  lemma {:induction false} PiecesOfFeeds(n: nat)
    ensures forall j :: 0 <= j < |Pieces(Feeds(n))| ==> Pieces(Feeds(n))[j] == ""
  {
    if n > 0 {
      assert Feeds(n)[1..] == Feeds(n - 1);
      PiecesOfFeeds(n - 1);
    }
  }
}

=== FILE: multi_text_view.dfy ===
/**
 TextImageView.kt: a widget that draws several text layers over an image.
 One layer at a time is selected; the setters and the gestures edit that
 layer only, and every edit re-measures it and tells the listener the new
 list of texts.

 The source keeps a list of layer objects and a reference to the selected
 one. Each layer owns its Paint, which compares by identity, so the data
 class's equality is identity in effect. The model gives every layer an
 identity (Id), keeps the layers in a map, and keeps the list and the
 selection as identities. A layer removed from the list stays in the map,
 as the removed object stays referenced by the selection.
 */
module MultiTextView {
  import opened Wrappers
  import opened Graphics
  import opened TextLayers

  type Id = nat

  /**
   The foreign calls: Paint.getTextBounds, the inverse of a layer's matrix
   applied to a touch point, and the delete button's hit test, which depends
   on the layer's matrix and the button's animated size.
   */
  datatype Host = Host(
    measure: TextMeasure,
    inverseMap: (TextProperties, Point) -> Point,
    inDeleteArea: TextProperties -> bool)

  datatype View = View(
    texts: seq<Id>,
    store: map<Id, TextProperties>,
    selected: Option<Id>,
    nextId: Id,
    measuredWidth: int,
    measuredHeight: int,
    panEnabled: bool,
    scaleEnabled: bool,
    rotationEnabled: bool,
    deleteEnabled: bool,
    deleteAreaVisible: bool,
    initialTextSize: real,
    minTextSize: real,
    maxTextSize: real,
    listening: bool)
  {
    /**
     Every listed layer exists and is listed once, the selection exists,
     fresh identities are above every used one, and every paint has a
     positive text size.
     */
    predicate Valid() {
      && (forall i :: 0 <= i < |texts| ==> texts[i] in store)
      && (forall i, j :: 0 <= i < j < |texts| ==> texts[i] != texts[j])
      && (selected.Some? ==> selected.value in store)
      && (forall id :: id in store ==> id < nextId && store[id].paint.textSize > 0.0)
      && initialTextSize > 0.0
    }
  }

  /** The two listener callbacks */
  datatype Notice = TextsChanged(texts: seq<Text>) | TextTapped(text: Text)

  /** The view after an operation, and what the listener was told, in order */
  datatype Outcome = Outcome(view: View, notices: seq<Notice>)

  /** getTexts: the snapshot of every listed layer, in drawing order */
  function GetTexts(v: View): (ts: seq<Text>)
    requires v.Valid()
    ensures |ts| == |v.texts|
    ensures forall i :: 0 <= i < |ts| ==> ts[i] == v.store[v.texts[i]].ToText(v.measuredWidth, v.measuredHeight)
  {
    seq(|v.texts|, i requires 0 <= i < |v.texts| && v.texts[i] in v.store =>
      v.store[v.texts[i]].ToText(v.measuredWidth, v.measuredHeight))
  }

  /** `listener?.textsChanged(getTexts())` */
  function Announce(v: View): (ns: seq<Notice>)
    requires v.Valid()
    ensures v.listening <==> |ns| == 1
    ensures !v.listening ==> ns == []
    ensures v.listening ==> ns[0] == TextsChanged(GetTexts(v))
  {
    if v.listening then [TextsChanged(GetTexts(v))] else []
  }

  /** getSelected: the selected layer's snapshot */
  function GetSelected(v: View): (t: Option<Text>)
    requires v.Valid()
    ensures t.Some? <==> v.selected.Some?
    ensures t.Some? ==> t.value == v.store[v.selected.value].ToText(v.measuredWidth, v.measuredHeight)
  {
    match v.selected
    case None => None
    case Some(id) => Some(v.store[id].ToText(v.measuredWidth, v.measuredHeight))
  }

  /** Only layer `id` may differ between `v` and `u`; the list, the selection and the settings agree */
  predicate OnlyLayerChanged(v: View, u: View, id: Id) {
    && u == v.(store := u.store)
    && u.store.Keys == v.store.Keys
    && forall other :: other in v.store && other != id ==> u.store[other] == v.store[other]
  }

  /**
   textChanged: store the layer with its bounds measured again, then tell the
   listener the new list of texts.
   */
  function TextChanged(v: View, id: Id, tp: TextProperties, host: Host): (o: Outcome)
    requires v.Valid() && id in v.store && tp.paint.textSize > 0.0
    ensures o.view.Valid()
    ensures OnlyLayerChanged(v, o.view, id)
    ensures o.view.store[id] == tp.(boundingRect := host.measure(tp.text, tp.paint))
    ensures o.notices == Announce(o.view)
  {
    var u := v.(store := v.store[id := tp.(boundingRect := host.measure(tp.text, tp.paint))]);
    Outcome(u, Announce(u))
  }

  /**
   The shape every setter shares, `selectedText?.let { …; textChanged(it) }`:
   nothing happens without a selection; otherwise the selected layer becomes
   `tp`, re-measured, and the listener hears of it.
   */
  function EditSelected(v: View, tp: TextProperties, host: Host): (o: Outcome)
    requires v.Valid() && tp.paint.textSize > 0.0
    ensures o.view.Valid()
    ensures v.selected.None? ==> o == Outcome(v, [])
    ensures v.selected.Some? ==> OnlyLayerChanged(v, o.view, v.selected.value)
    ensures v.selected.Some? ==> o.view.store[v.selected.value] == tp.(boundingRect := host.measure(tp.text, tp.paint))
    ensures v.selected.Some? ==> o.notices == Announce(o.view)
  {
    match v.selected
    case None => Outcome(v, [])
    case Some(id) => TextChanged(v, id, tp, host)
  }

  /** The selected layer; a placeholder when there is none, which EditSelected then ignores */
  function Current(v: View): (tp: TextProperties)
    requires v.Valid()
    ensures v.selected.Some? ==> tp == v.store[v.selected.value]
    ensures tp.paint.textSize > 0.0
  {
    match v.selected
    case None => NewTextProperties("", v.initialTextSize)
    case Some(id) => v.store[id]
  }

  /*** Setters ***/

  /** changeText */
  function ChangeText(v: View, text: string, host: Host): (o: Outcome)
    requires v.Valid()
    ensures o.view.Valid()
    ensures v.selected.None? ==> o == Outcome(v, [])
    ensures v.selected.Some? ==> OnlyLayerChanged(v, o.view, v.selected.value) && o.notices == Announce(o.view)
    ensures v.selected.Some? ==>
      var tp := v.store[v.selected.value];
      o.view.store[v.selected.value] == tp.(text := text, boundingRect := host.measure(text, tp.paint))
  {
    var tp := Current(v);
    EditSelected(v, tp.(text := text), host)
  }

  /** setTypeface: a null typeface is the default one */
  function SetTypeface(v: View, typeface: Option<Typeface>, host: Host): (o: Outcome)
    requires v.Valid()
    ensures o.view.Valid()
    ensures v.selected.None? ==> o == Outcome(v, [])
    ensures v.selected.Some? ==> OnlyLayerChanged(v, o.view, v.selected.value) && o.notices == Announce(o.view)
    ensures v.selected.Some? ==>
      var tp := v.store[v.selected.value];
      var paint := tp.paint.(typeface := typeface);
      o.view.store[v.selected.value] == tp.(paint := paint, boundingRect := host.measure(tp.text, paint))
  {
    var tp := Current(v);
    EditSelected(v, tp.(paint := tp.paint.(typeface := typeface)), host)
  }

  /** setTextColor */
  function SetTextColor(v: View, color: int, host: Host): (o: Outcome)
    requires v.Valid()
    ensures o.view.Valid()
    ensures v.selected.None? ==> o == Outcome(v, [])
    ensures v.selected.Some? ==> OnlyLayerChanged(v, o.view, v.selected.value) && o.notices == Announce(o.view)
    ensures v.selected.Some? ==>
      var tp := v.store[v.selected.value];
      var paint := tp.paint.(color := color);
      o.view.store[v.selected.value] == tp.(paint := paint, boundingRect := host.measure(tp.text, paint))
  {
    var tp := Current(v);
    EditSelected(v, tp.(paint := tp.paint.(color := color)), host)
  }

  /** setPosition: the position is given as a fraction of the view's size and stored in pixels */
  function SetPosition(v: View, position: Point, host: Host): (o: Outcome)
    requires v.Valid()
    ensures o.view.Valid()
    ensures v.selected.None? ==> o == Outcome(v, [])
    ensures v.selected.Some? ==> OnlyLayerChanged(v, o.view, v.selected.value) && o.notices == Announce(o.view)
    ensures v.selected.Some? ==>
      var tp := v.store[v.selected.value];
      o.view.store[v.selected.value]
      == tp.(position := Point(position.x * v.measuredWidth as real, position.y * v.measuredHeight as real),
             boundingRect := host.measure(tp.text, tp.paint))
  {
    var tp := Current(v);
    EditSelected(v, tp.(position := Point(position.x * v.measuredWidth as real, position.y * v.measuredHeight as real)), host)
  }

  /** setScaleFactor */
  function SetScaleFactor(v: View, scale: real, host: Host): (o: Outcome)
    requires v.Valid()
    ensures o.view.Valid()
    ensures v.selected.None? ==> o == Outcome(v, [])
    ensures v.selected.Some? ==> OnlyLayerChanged(v, o.view, v.selected.value) && o.notices == Announce(o.view)
    ensures v.selected.Some? ==>
      var tp := v.store[v.selected.value];
      o.view.store[v.selected.value] == tp.(scaleFactor := scale, boundingRect := host.measure(tp.text, tp.paint))
  {
    var tp := Current(v);
    EditSelected(v, tp.(scaleFactor := scale), host)
  }

  /** setRotationDegrees */
  function SetRotationDegrees(v: View, rotation: real, host: Host): (o: Outcome)
    requires v.Valid()
    ensures o.view.Valid()
    ensures v.selected.None? ==> o == Outcome(v, [])
    ensures v.selected.Some? ==> OnlyLayerChanged(v, o.view, v.selected.value) && o.notices == Announce(o.view)
    ensures v.selected.Some? ==>
      var tp := v.store[v.selected.value];
      o.view.store[v.selected.value] == tp.(rotationDegrees := rotation, boundingRect := host.measure(tp.text, tp.paint))
  {
    var tp := Current(v);
    EditSelected(v, tp.(rotationDegrees := rotation), host)
  }

  /**
   A position handed to setPosition is the one getSelected reports, as long
   as the view has an area, and the other properties stay as they were.
   */
  lemma SetPositionRoundTrip(v: View, position: Point, host: Host)
    requires v.Valid() && v.selected.Some?
    requires v.measuredWidth != 0 && v.measuredHeight != 0
    ensures var before := GetSelected(v).value;
      GetSelected(SetPosition(v, position, host).view)
      == Some(before.(position := FloatPoint(Finite(position.x), Finite(position.y))))
  {
    var id := v.selected.value;
    var tp := v.store[id];
    var w, h := v.measuredWidth, v.measuredHeight;
    var placed := tp.(position := Point(position.x * w as real, position.y * h as real));
    var u := SetPosition(v, position, host).view;
    assert u.store[id] == placed.(boundingRect := host.measure(tp.text, tp.paint));
    assert u.store[id].ToText(w, h) == placed.ToText(w, h);
    FractionRoundTrip(tp, position, w, h);
  }

  /*** Adding layers ***/

  /**
   addText: a new layer with a fresh paint of the initial text size, centred
   on the view, listed on top of the others and selected.
   */
  function AddText(v: View, text: string, host: Host): (o: Outcome)
    requires v.Valid()
    ensures o.view.Valid()
    ensures v.nextId !in v.store
    ensures o.view.texts == v.texts + [v.nextId] && o.view.selected == Some(v.nextId)
    ensures o.view == v.(texts := v.texts + [v.nextId], selected := Some(v.nextId), nextId := v.nextId + 1,
                         store := v.store[v.nextId := o.view.store[v.nextId]])
    ensures forall id :: id in v.store ==> id in o.view.store && o.view.store[id] == v.store[id]
    ensures var tp := o.view.store[v.nextId];
      && tp.text == text && tp.paint == NewPaint(v.initialTextSize)
      && tp.scaleFactor == 1.0 && tp.rotationDegrees == 0.0
      && tp.boundingRect == host.measure(text, tp.paint)
    ensures o.notices == Announce(o.view)
  {
    var paint := NewPaint(v.initialTextSize);
    var bounds := host.measure(text, paint);
    var tp := NewTextProperties(text, v.initialTextSize).(
      boundingRect := bounds,
      position := Point(v.measuredWidth as real / 2.0 - bounds.ExactCenterX(),
                        v.measuredHeight as real / 2.0 - bounds.ExactCenterY()));
    var id := v.nextId;
    var u := v.(texts := v.texts + [id], store := v.store[id := tp], selected := Some(id), nextId := id + 1);
    TextChanged(u, id, tp, host)
  }

  /** A new layer's glyph bounds are centred on the view */
  lemma AddTextCentres(v: View, text: string, host: Host)
    requires v.Valid()
    ensures var tp := AddText(v, text, host).view.store[v.nextId];
      && tp.position.x + tp.boundingRect.ExactCenterX() == v.measuredWidth as real / 2.0
      && tp.position.y + tp.boundingRect.ExactCenterY() == v.measuredHeight as real / 2.0
  {
  }

  /** The texts after addText are the texts before it and the new one, which is the selected one */
  lemma AddTextAppends(v: View, text: string, host: Host)
    requires v.Valid()
    ensures var u := AddText(v, text, host).view;
      GetTexts(u) == GetTexts(v) + [GetSelected(u).value]
  {
    var u := AddText(v, text, host).view;
    assert forall i :: 0 <= i < |v.texts| ==> u.texts[i] == v.texts[i];
  }

  /**
   setText: all layers are dropped and one new layer holding `text` is added
   and selected, exactly as addText would add it: a fresh paint of the
   initial size, measured bounds centred on the view, scale 1 and no
   rotation. The listener is told the one-layer list.
   */
  function SetText(v: View, text: string, host: Host): (o: Outcome)
    requires v.Valid()
    ensures o.view.Valid()
    ensures v.nextId !in v.store
    ensures o.view.texts == [v.nextId] && o.view.selected == Some(v.nextId)
    ensures o.view == v.(texts := [v.nextId], selected := Some(v.nextId), nextId := v.nextId + 1,
                         store := v.store[v.nextId := o.view.store[v.nextId]])
    ensures var tp := o.view.store[v.nextId];
      && tp.text == text && tp.paint == NewPaint(v.initialTextSize)
      && tp.scaleFactor == 1.0 && tp.rotationDegrees == 0.0
      && tp.boundingRect == host.measure(text, tp.paint)
      && tp.position.x + tp.boundingRect.ExactCenterX() == v.measuredWidth as real / 2.0
      && tp.position.y + tp.boundingRect.ExactCenterY() == v.measuredHeight as real / 2.0
    ensures |GetTexts(o.view)| == 1 && GetTexts(o.view)[0].text == text
    ensures GetTexts(o.view)[0].scaleFactor == 1.0 && GetTexts(o.view)[0].rotationDegrees == 0.0
    ensures o.notices == Announce(o.view)
  {
    AddTextCentres(v.(texts := []), text, host);
    AddText(v.(texts := []), text, host)
  }

  /*** Gestures ***/

  /** onMove: with panning enabled, the selected layer follows the finger (the distances are what the finger travelled back) */
  function OnMove(v: View, distanceX: real, distanceY: real, host: Host): (o: Outcome)
    requires v.Valid()
    ensures o.view.Valid()
    ensures !v.panEnabled || v.selected.None? ==> o == Outcome(v, [])
    ensures v.panEnabled && v.selected.Some? ==> OnlyLayerChanged(v, o.view, v.selected.value) && o.notices == Announce(o.view)
    ensures v.panEnabled && v.selected.Some? ==>
      var tp := v.store[v.selected.value];
      o.view.store[v.selected.value]
      == tp.(position := tp.position.Plus(-distanceX, -distanceY), boundingRect := host.measure(tp.text, tp.paint))
  {
    if v.panEnabled then
      var tp := Current(v);
      EditSelected(v, tp.(position := tp.position.Plus(-distanceX, -distanceY)), host)
    else Outcome(v, [])
  }

  /** A move and the move back leave the selected layer where it was */
  lemma MoveAndBack(v: View, dx: real, dy: real, host: Host)
    requires v.Valid() && v.selected.Some?
    ensures var u := OnMove(OnMove(v, dx, dy, host).view, -dx, -dy, host).view;
      u.store[v.selected.value].position == v.store[v.selected.value].position
  {
  }

  /**
   The clamp of onScale: the scale factor times `factor`, except that the
   text size it yields is kept within [minSize, maxSize].
   */
  function ClampScale(scaleFactor: real, factor: real, textSize: real, minSize: real, maxSize: real): (s: real)
    requires textSize > 0.0
    ensures s * textSize == Between(scaleFactor * factor * textSize, minSize, maxSize)
  {
    Between(scaleFactor * factor * textSize, minSize, maxSize) / textSize
  }

  /** A gesture that keeps the drawn size within the bounds scales the layer by exactly its factor */
  lemma ClampScaleInRange(scaleFactor: real, factor: real, textSize: real, minSize: real, maxSize: real)
    requires textSize > 0.0 && minSize <= scaleFactor * factor * textSize <= maxSize
    ensures ClampScale(scaleFactor, factor, textSize, minSize, maxSize) == scaleFactor * factor
  {
  }

  /**
   onScale: with scaling enabled, the selected layer's scale factor grows by
   the gesture's factor, kept so that the drawn text size stays within the
   minimum and maximum text sizes.
   */
  function OnScale(v: View, factor: real, host: Host): (o: Outcome)
    requires v.Valid()
    ensures o.view.Valid()
    ensures !v.scaleEnabled || v.selected.None? ==> o == Outcome(v, [])
    ensures v.scaleEnabled && v.selected.Some? ==> OnlyLayerChanged(v, o.view, v.selected.value) && o.notices == Announce(o.view)
    ensures v.scaleEnabled && v.selected.Some? ==>
      var before, after := v.store[v.selected.value], o.view.store[v.selected.value];
      && after == before.(scaleFactor := after.scaleFactor, boundingRect := host.measure(before.text, before.paint))
      && after.scaleFactor == ClampScale(before.scaleFactor, factor, before.paint.textSize, v.minTextSize, v.maxTextSize)
  {
    if v.scaleEnabled then
      var tp := Current(v);
      EditSelected(v, tp.(scaleFactor := ClampScale(tp.scaleFactor, factor, tp.paint.textSize, v.minTextSize, v.maxTextSize)), host)
    else Outcome(v, [])
  }

  /** After onScale the selected layer's drawn size lies within the configured bounds */
  lemma ScaleStaysInBounds(v: View, factor: real, host: Host)
    requires v.Valid() && v.scaleEnabled && v.selected.Some? && v.minTextSize <= v.maxTextSize
    ensures v.minTextSize <= DrawnTextSize(OnScale(v, factor, host).view.store[v.selected.value]) <= v.maxTextSize
  {
    var tp := v.store[v.selected.value];
    var s := ClampScale(tp.scaleFactor, factor, tp.paint.textSize, v.minTextSize, v.maxTextSize);
    var after := OnScale(v, factor, host).view.store[v.selected.value];
    assert after == tp.(scaleFactor := s, boundingRect := after.boundingRect);
    assert DrawnTextSize(after) == Between(tp.scaleFactor * factor * tp.paint.textSize, v.minTextSize, v.maxTextSize);
  }

  /** onRotate: with rotation enabled, the selected layer turns back by the degrees since the last event */
  function OnRotate(v: View, sinceLast: real, host: Host): (o: Outcome)
    requires v.Valid()
    ensures o.view.Valid()
    ensures !v.rotationEnabled || v.selected.None? ==> o == Outcome(v, [])
    ensures v.rotationEnabled && v.selected.Some? ==> OnlyLayerChanged(v, o.view, v.selected.value) && o.notices == Announce(o.view)
    ensures v.rotationEnabled && v.selected.Some? ==>
      var tp, after := v.store[v.selected.value], o.view.store[v.selected.value];
      && after == tp.(rotationDegrees := after.rotationDegrees, boundingRect := host.measure(tp.text, tp.paint))
      && after.rotationDegrees + sinceLast == tp.rotationDegrees
  {
    if v.rotationEnabled then
      var tp := Current(v);
      EditSelected(v, tp.(rotationDegrees := tp.rotationDegrees - sinceLast), host)
    else Outcome(v, [])
  }

  function Sum(xs: seq<real>): real {
    if |xs| == 0 then 0.0 else xs[0] + Sum(xs[1..])
  }

  /** A rotate gesture as the sequence of its events */
  function RotateThrough(v: View, steps: seq<real>, host: Host): (u: View)
    requires v.Valid()
    ensures u.Valid()
    decreases |steps|
  {
    if |steps| == 0 then v else RotateThrough(OnRotate(v, steps[0], host).view, steps[1..], host)
  }

  /** Over a whole gesture, the selected layer turns back by the sum of the steps */
  lemma {:induction false} RotationAccumulates(v: View, steps: seq<real>, host: Host)
    requires v.Valid() && v.rotationEnabled && v.selected.Some?
    ensures var u := RotateThrough(v, steps, host);
      u.selected == v.selected
      && u.store[v.selected.value].rotationDegrees == v.store[v.selected.value].rotationDegrees - Sum(steps)
    decreases |steps|
  {
    if |steps| > 0 {
      RotationAccumulates(OnRotate(v, steps[0], host).view, steps[1..], host);
    }
  }

  /**
   Whether a touch lands on a layer: its inverse-mapped point, rounded to the
   nearest pixel, falls inside its bounds. Because of the rounding, the area
   that counts is the bounds shifted up and left by half a pixel.
   */
  function Hit(tp: TextProperties, touch: Point, host: Host): (b: bool)
    ensures var p, r := host.inverseMap(tp, touch), tp.boundingRect;
      b <==> && r.left as real - 0.5 <= p.x < r.right as real - 0.5
             && r.top as real - 0.5 <= p.y < r.bottom as real - 0.5
  {
    var p := host.inverseMap(tp, touch);
    tp.boundingRect.Contains(Round(p.x), Round(p.y))
  }

  /** The position of the last of `ids` that the touch hits: the layer drawn on top */
  function LastHit(store: map<Id, TextProperties>, ids: seq<Id>, touch: Point, host: Host): (r: Option<nat>)
    requires forall i :: 0 <= i < |ids| ==> ids[i] in store
    ensures r.None? <==> forall i :: 0 <= i < |ids| ==> !Hit(store[ids[i]], touch, host)
    ensures r.Some? ==> && r.value < |ids| && Hit(store[ids[r.value]], touch, host)
                        && forall j :: r.value < j < |ids| ==> !Hit(store[ids[j]], touch, host)
    decreases |ids|
  {
    if |ids| == 0 then None
    else if Hit(store[ids[|ids| - 1]], touch, host) then Some(|ids| - 1)
    else
      var init := ids[..|ids| - 1];
      assert forall i :: 0 <= i < |init| ==> init[i] == ids[i];
      LastHit(store, init, touch, host)
  }

  /**
   onDown: every layer under the touch is selected in turn, so the topmost
   one wins; a touch on no layer keeps the selection.
   */
  function OnDown(v: View, touch: Point, host: Host): (u: View)
    requires v.Valid()
    ensures u.Valid()
    ensures u == v.(selected := u.selected)
    ensures (forall i :: 0 <= i < |v.texts| ==> !Hit(v.store[v.texts[i]], touch, host)) ==> u.selected == v.selected
    ensures (exists i :: 0 <= i < |v.texts| && Hit(v.store[v.texts[i]], touch, host)) ==>
      exists k :: && 0 <= k < |v.texts| && u.selected == Some(v.texts[k])
                  && Hit(v.store[v.texts[k]], touch, host)
                  && forall j :: k < j < |v.texts| ==> !Hit(v.store[v.texts[j]], touch, host)
  {
    match LastHit(v.store, v.texts, touch, host)
    case None => v
    case Some(k) => v.(selected := Some(v.texts[k]))
  }

  /** onSingleTapConfirmed: a tap on the selected layer is reported to the listener; nothing changes */
  function OnSingleTapConfirmed(v: View, touch: Point, host: Host): (ns: seq<Notice>)
    requires v.Valid()
    ensures |ns| <= 1
    ensures |ns| == 1 <==> v.listening && v.selected.Some? && Hit(v.store[v.selected.value], touch, host)
    ensures |ns| == 1 ==> ns[0] == TextTapped(GetSelected(v).value)
  {
    match v.selected
    case Some(id) =>
      if v.listening && Hit(v.store[id], touch, host) then [TextTapped(v.store[id].ToText(v.measuredWidth, v.measuredHeight))]
      else []
    case None => []
  }

  /**
   A touch followed by a confirmed tap at the same place reports the topmost
   layer under it, as a listener sees it.
   */
  lemma TapReportsTopmostHit(v: View, touch: Point, host: Host, k: nat)
    requires v.Valid() && v.listening
    requires k < |v.texts| && Hit(v.store[v.texts[k]], touch, host)
    requires forall j :: k < j < |v.texts| ==> !Hit(v.store[v.texts[j]], touch, host)
    ensures OnSingleTapConfirmed(OnDown(v, touch, host), touch, host)
            == [TextTapped(v.store[v.texts[k]].ToText(v.measuredWidth, v.measuredHeight))]
  {
    var u := OnDown(v, touch, host);
    var k' :| && 0 <= k' < |v.texts| && u.selected == Some(v.texts[k'])
              && Hit(v.store[v.texts[k']], touch, host)
              && forall j :: k' < j < |v.texts| ==> !Hit(v.store[v.texts[j]], touch, host);
    assert k' == k;
  }

  /*** Deleting layers ***/

  /** Where `id` first occurs in `ids` */
  function FirstIndex(ids: seq<Id>, id: Id): (k: nat)
    requires id in ids
    ensures k < |ids| && ids[k] == id && id !in ids[..k]
  {
    if ids[0] == id then 0
    else
      var k := FirstIndex(ids[1..], id);
      assert ids[..k + 1] == [ids[0]] + ids[1..][..k];
      k + 1
  }

  /** `MutableList.remove`: drops the first occurrence, if any, and keeps the rest in order */
  function RemoveFirst(ids: seq<Id>, id: Id): (r: seq<Id>)
    ensures id !in ids ==> r == ids
    ensures id in ids ==> r == ids[..FirstIndex(ids, id)] + ids[FirstIndex(ids, id) + 1..]
  {
    if |ids| == 0 then []
    else if ids[0] == id then ids[1..]
    else if id in ids then
      var k := FirstIndex(ids[1..], id);
      assert ids[..k + 1] == [ids[0]] + ids[1..][..k];
      assert ids[k + 2..] == ids[1..][k + 1..];
      [ids[0]] + RemoveFirst(ids[1..], id)
    else
      assert id !in ids[1..];
      assert ids == [ids[0]] + ids[1..];
      [ids[0]] + RemoveFirst(ids[1..], id)
  }

  /** Removing an identity listed once leaves every other one listed once, and not it */
  lemma RemoveListedOnce(ids: seq<Id>, id: Id)
    requires forall i, j :: 0 <= i < j < |ids| ==> ids[i] != ids[j]
    ensures var r := RemoveFirst(ids, id);
      && id !in r
      && (forall x :: x in r <==> x in ids && x != id)
      && (forall i, j :: 0 <= i < j < |r| ==> r[i] != r[j])
  {
    if id in ids {
      var k := FirstIndex(ids, id);
      RemoveAt(ids, k);
    }
  }

  /** Dropping the entry at `k` of a list without repeats */
  lemma RemoveAt(ids: seq<Id>, k: nat)
    requires k < |ids|
    requires forall i, j :: 0 <= i < j < |ids| ==> ids[i] != ids[j]
    ensures var r := ids[..k] + ids[k + 1..];
      && ids[k] !in r
      && (forall x :: x in r <==> x in ids && x != ids[k])
      && (forall i, j :: 0 <= i < j < |r| ==> r[i] != r[j])
  {
    var r := ids[..k] + ids[k + 1..];
    assert forall i :: 0 <= i < |r| ==> r[i] == if i < k then ids[i] else ids[i + 1];
    forall x | x in ids && x != ids[k]
      ensures x in r
    {
      var i :| 0 <= i < |ids| && ids[i] == x;
      if i < k {
        assert r[i] == x;
      } else {
        assert r[i - 1] == x;
      }
    }
  }

  /** checkDeleted: a layer over the delete button leaves the list, and the listener hears of it */
  function CheckDeleted(v: View, id: Id, host: Host): (o: Outcome)
    requires v.Valid() && id in v.store
    ensures o.view.Valid()
    ensures !host.inDeleteArea(v.store[id]) ==> o == Outcome(v, [])
    ensures host.inDeleteArea(v.store[id]) ==>
      && o.view == v.(texts := RemoveFirst(v.texts, id))
      && id !in o.view.texts
      && (forall x :: x in o.view.texts <==> x in v.texts && x != id)
      && o.notices == Announce(o.view)
  {
    if host.inDeleteArea(v.store[id]) then
      RemoveListedOnce(v.texts, id);
      var u := v.(texts := RemoveFirst(v.texts, id));
      assert forall i :: 0 <= i < |u.texts| ==> u.texts[i] in v.texts;
      Outcome(u, Announce(u))
    else Outcome(v, [])
  }

  /** onMoveBegin: with deletion enabled and a layer selected, the delete area shows */
  function OnMoveBegin(v: View): (u: View)
    ensures u == v.(deleteAreaVisible := u.deleteAreaVisible)
    ensures u.deleteAreaVisible <==> v.deleteAreaVisible || (v.deleteEnabled && v.selected.Some?)
  {
    if v.deleteEnabled && v.selected.Some? then v.(deleteAreaVisible := true) else v
  }

  /** onMoveEnd: the delete area hides, and the selected layer is deleted if it was dropped on the button */
  function OnMoveEnd(v: View, host: Host): (o: Outcome)
    requires v.Valid()
    ensures o.view.Valid()
    ensures !(v.deleteEnabled && v.deleteAreaVisible) ==> o == Outcome(v, [])
    ensures v.deleteEnabled && v.deleteAreaVisible ==> !o.view.deleteAreaVisible && o.view.selected == v.selected
    ensures v.deleteEnabled && v.deleteAreaVisible && v.selected.Some? ==>
      o == CheckDeleted(v.(deleteAreaVisible := false), v.selected.value, host)
    ensures v.deleteEnabled && v.deleteAreaVisible && v.selected.None? ==> o == Outcome(v.(deleteAreaVisible := false), [])
  {
    if v.deleteEnabled && v.deleteAreaVisible then
      var u := v.(deleteAreaVisible := false);
      match v.selected
      case Some(id) => CheckDeleted(u, id, host)
      case None => Outcome(u, [])
    else Outcome(v, [])
  }

  /**
   A deleted layer stays selected: later edits change it, but it is no
   longer listed, so the texts the listener is told about stay the same.
   */
  lemma EditingDeletedLayerIsInvisible(v: View, text: string, host: Host)
    requires v.Valid() && v.selected.Some? && v.selected.value !in v.texts
    ensures GetTexts(ChangeText(v, text, host).view) == GetTexts(v)
  {
    var u := ChangeText(v, text, host).view;
    assert forall i :: 0 <= i < |v.texts| ==> v.texts[i] != v.selected.value;
  }
}

=== FILE: single_text_touch.dfy ===
/**
 The touch handling of TextImageView.java: the focal point is the centroid
 of the pointers, and a move of the focal point pans the text and its
 rotation centre together.

 The handler comes twice. OnTouchEventAsWritten follows the source, which
 does not refocus when a second pointer goes down and refocuses over all
 pointers, the lifting one included, when one goes up; either makes the text
 jump on the next move. OnTouchEvent is the handler with both corrected,
 refocusing on the pointers that are down after the event.
 */
module SingleTextTouch {
  import opened Wrappers
  import opened Graphics
  import opened SingleTextView

  /** MotionEvent action codes */
  const ACTION_DOWN: int := 0
  const ACTION_UP: int := 1
  const ACTION_MOVE: int := 2
  const ACTION_POINTER_DOWN: int := 5
  const ACTION_POINTER_UP: int := 6

  /** A touch event: its action word and the position of every pointer it reports */
  datatype MotionEvent = MotionEvent(action: int, pointers: seq<Point>)

  /** `action & ACTION_MASK` with the mask 0xff: on a two's-complement int, the remainder modulo 256 */
  function ActionMasked(action: int): (a: int)
    ensures 0 <= a < 256
    ensures 0 <= action < 256 ==> a == action
    ensures (action - a) % 256 == 0
  {
    action % 256
  }

  /** `(action & 0xff00) >> 8`: the index of the pointer a POINTER_DOWN or POINTER_UP is about */
  function ActionIndex(action: int): (i: int)
    ensures 0 <= i < 256
    ensures 0 <= action < 65536 ==> action == i * 256 + ActionMasked(action)
  {
    (action / 256) % 256
  }

  /*** The focal point ***/

  function SumX(ps: seq<Point>): real
    decreases |ps|
  {
    if |ps| == 0 then 0.0 else SumX(ps[..|ps| - 1]) + ps[|ps| - 1].x
  }

  function SumY(ps: seq<Point>): real
    decreases |ps|
  {
    if |ps| == 0 then 0.0 else SumY(ps[..|ps| - 1]) + ps[|ps| - 1].y
  }

  /** The arithmetic mean of some pointers' positions */
  function Centroid(ps: seq<Point>): Point
    requires |ps| > 0
  {
    Point(SumX(ps) / |ps| as real, SumY(ps) / |ps| as real)
  }

  /**
   recalculateFocalPoint: the point whose coordinates times the pointer count
   are the pointers' coordinate sums, or the old focal point when no pointer
   is reported.
   */
  function Refocus(focal: Point, ps: seq<Point>): (f: Point)
    ensures |ps| == 0 ==> f == focal
    ensures |ps| > 0 ==> f.x * |ps| as real == SumX(ps) && f.y * |ps| as real == SumY(ps)
  {
    if |ps| == 0 then focal else Centroid(ps)
  }

  /**
   recalculateFocalPoint as the loop the source runs: sum the coordinates,
   then divide by the pointer count.
   */
  method RecalculateFocalPoint(focal: Point, pointers: seq<Point>) returns (f: Point)
    ensures |pointers| == 0 ==> f == focal
    ensures |pointers| > 0 ==> f == Centroid(pointers)
  {
    if |pointers| == 0 {
      return focal;
    }
    var x, y := 0.0, 0.0;
    var i := 0;
    while i < |pointers|
      invariant 0 <= i <= |pointers|
      invariant x == SumX(pointers[..i]) && y == SumY(pointers[..i])
    {
      assert pointers[..i + 1][..i] == pointers[..i];
      x := x + pointers[i].x;
      y := y + pointers[i].y;
      i := i + 1;
    }
    assert pointers[..i] == pointers;
    f := Point(x / |pointers| as real, y / |pointers| as real);
  }

  /** Every pointer moved by the same amount */
  function Shifted(ps: seq<Point>, dx: real, dy: real): (moved: seq<Point>)
    ensures |moved| == |ps|
    ensures forall i :: 0 <= i < |ps| ==> moved[i] == ps[i].Plus(dx, dy)
  {
    seq(|ps|, i requires 0 <= i < |ps| => ps[i].Plus(dx, dy))
  }

  lemma {:induction false} SumShifted(ps: seq<Point>, dx: real, dy: real)
    ensures SumX(Shifted(ps, dx, dy)) == SumX(ps) + |ps| as real * dx
    ensures SumY(Shifted(ps, dx, dy)) == SumY(ps) + |ps| as real * dy
    decreases |ps|
  {
    if |ps| > 0 {
      var init := ps[..|ps| - 1];
      assert Shifted(ps, dx, dy)[..|ps| - 1] == Shifted(init, dx, dy);
      SumShifted(init, dx, dy);
    }
  }

  lemma MeanShift(sum: real, n: real, d: real)
    requires n > 0.0
    ensures (sum + n * d) / n == sum / n + d
  {
  }

  /** Moving every pointer by the same amount moves their centroid by that amount */
  lemma CentroidShifted(ps: seq<Point>, dx: real, dy: real)
    requires |ps| > 0
    ensures Centroid(Shifted(ps, dx, dy)) == Centroid(ps).Plus(dx, dy)
  {
    SumShifted(ps, dx, dy);
    MeanShift(SumX(ps), |ps| as real, dx);
    MeanShift(SumY(ps), |ps| as real, dy);
  }

  /*** Panning ***/

  /** The pan of ACTION_MOVE: the text and its rotation centre move together */
  function Pan(v: View, dx: real, dy: real): (u: View)
    ensures u.textPosition.x - v.textPosition.x == dx && u.textPosition.y - v.textPosition.y == dy
    ensures u.rotationCenter.x - v.rotationCenter.x == dx && u.rotationCenter.y - v.rotationCenter.y == dy
    ensures u.(textPosition := v.textPosition, rotationCenter := v.rotationCenter) == v
  {
    v.(textPosition := v.textPosition.Plus(dx, dy), rotationCenter := v.rotationCenter.Plus(dx, dy))
  }

  /**
   The ACTION_MOVE branch: refocus, and when panning is enabled move the
   text and the rotation centre by the focal point's displacement, then
   reclamp. Panning disabled, only the focal point changes.
   */
  function Move(v: View, pointers: seq<Point>, host: Host): (r: Response)
    ensures r.handled
    ensures r.step.view.focalPoint == Refocus(v.focalPoint, pointers)
    ensures var d := Refocus(v.focalPoint, pointers);
      v.panEnabled ==> r.step.view.rotationCenter == v.rotationCenter.Plus(d.x - v.focalPoint.x, d.y - v.focalPoint.y)
    ensures var d := Refocus(v.focalPoint, pointers);
      v.panEnabled && v.clampTextMode == Unlimited
      ==> r.step.view.textPosition == v.textPosition.Plus(d.x - v.focalPoint.x, d.y - v.focalPoint.y)
    ensures var d := Refocus(v.focalPoint, pointers);
      v.panEnabled ==> r.step == Reclamp(r.step.view.(textPosition := v.textPosition.Plus(d.x - v.focalPoint.x, d.y - v.focalPoint.y)), host)
    ensures !v.panEnabled ==> r.step == Step(v.(focalPoint := Refocus(v.focalPoint, pointers)), None)
    ensures r.step.view.(focalPoint := v.focalPoint, textPosition := v.textPosition, rotationCenter := v.rotationCenter) == v
  {
    var f := Refocus(v.focalPoint, pointers);
    var u := v.(focalPoint := f);
    if v.panEnabled then Response(Reclamp(Pan(u, f.x - v.focalPoint.x, f.y - v.focalPoint.y), host), true)
    else Response(Step(u, None), true)
  }

  /*** The handler ***/

  /** onTouchEvent as the source writes it */
  function OnTouchEventAsWritten(v: View, e: MotionEvent, host: Host): (r: Response)
    ensures r.handled <==> ActionMasked(e.action) in {ACTION_DOWN, ACTION_UP, ACTION_MOVE, ACTION_POINTER_UP}
    ensures ActionMasked(e.action) in {ACTION_DOWN, ACTION_UP, ACTION_POINTER_UP}
            ==> r.step == Step(v.(focalPoint := Refocus(v.focalPoint, e.pointers)), None)
    ensures ActionMasked(e.action) == ACTION_MOVE ==> r == Move(v, e.pointers, host)
    ensures !r.handled ==> r.step == Step(v, None)
  {
    var a := ActionMasked(e.action);
    if a == ACTION_DOWN || a == ACTION_UP || a == ACTION_POINTER_UP then
      Response(Step(v.(focalPoint := Refocus(v.focalPoint, e.pointers)), None), true)
    else if a == ACTION_MOVE then
      Move(v, e.pointers, host)
    else
      Response(Step(v, None), false)
  }

  /** The pointers still down after an event: a lifting pointer no longer counts */
  function StillDown(e: MotionEvent): (ps: seq<Point>)
    ensures ActionMasked(e.action) !in {ACTION_UP, ACTION_POINTER_UP} ==> ps == e.pointers
    ensures ActionMasked(e.action) in {ACTION_UP, ACTION_POINTER_UP} && ActionIndex(e.action) < |e.pointers|
            ==> |ps| == |e.pointers| - 1 && multiset(ps) + multiset{e.pointers[ActionIndex(e.action)]} == multiset(e.pointers)
  {
    var a, i := ActionMasked(e.action), ActionIndex(e.action);
    if (a == ACTION_UP || a == ACTION_POINTER_UP) && i < |e.pointers| then
      assert e.pointers == e.pointers[..i] + [e.pointers[i]] + e.pointers[i + 1..];
      e.pointers[..i] + e.pointers[i + 1..]
    else e.pointers
  }

  /**
   onTouchEvent as intended: every pointer going down or up refocuses on the
   pointers that remain down, so the focal point only moves when they do.
   */
  function OnTouchEvent(v: View, e: MotionEvent, host: Host): (r: Response)
    ensures r.handled <==> ActionMasked(e.action) in {ACTION_DOWN, ACTION_UP, ACTION_MOVE, ACTION_POINTER_DOWN, ACTION_POINTER_UP}
    ensures ActionMasked(e.action) in {ACTION_DOWN, ACTION_UP, ACTION_POINTER_DOWN, ACTION_POINTER_UP}
            ==> r.step == Step(v.(focalPoint := Refocus(v.focalPoint, StillDown(e))), None)
    ensures ActionMasked(e.action) == ACTION_MOVE ==> r == Move(v, e.pointers, host)
    ensures !r.handled ==> r.step == Step(v, None)
  {
    var a := ActionMasked(e.action);
    if a == ACTION_DOWN || a == ACTION_UP || a == ACTION_POINTER_DOWN || a == ACTION_POINTER_UP then
      Response(Step(v.(focalPoint := Refocus(v.focalPoint, StillDown(e))), None), true)
    else if a == ACTION_MOVE then
      Move(v, e.pointers, host)
    else
      Response(Step(v, None), false)
  }

  /**
   After any pointer goes down or up, a move that reports the remaining
   pointers where they are does not pan: the rotation centre stays, and an
   unclamped text stays too.
   */
  lemma StillPointersDoNotPan(v: View, e: MotionEvent, host: Host)
    requires ActionMasked(e.action) in {ACTION_DOWN, ACTION_UP, ACTION_POINTER_DOWN, ACTION_POINTER_UP}
    requires |StillDown(e)| > 0
    ensures var u := OnTouchEvent(v, e, host).step.view;
      var w := OnTouchEvent(u, MotionEvent(ACTION_MOVE, StillDown(e)), host).step.view;
      && w.rotationCenter == v.rotationCenter
      && (v.clampTextMode == Unlimited ==> w.textPosition == v.textPosition)
  {
  }

  /**
   After any pointer goes down or up, a move that drags the remaining
   pointers by (dx, dy) pans the rotation centre by exactly that much, and an
   unclamped text too.
   */
  lemma DragPansByDrag(v: View, e: MotionEvent, dx: real, dy: real, host: Host)
    requires ActionMasked(e.action) in {ACTION_DOWN, ACTION_UP, ACTION_POINTER_DOWN, ACTION_POINTER_UP}
    requires |StillDown(e)| > 0 && v.panEnabled
    ensures var u := OnTouchEvent(v, e, host).step.view;
      var w := OnTouchEvent(u, MotionEvent(ACTION_MOVE, Shifted(StillDown(e), dx, dy)), host).step.view;
      && w.rotationCenter == v.rotationCenter.Plus(dx, dy)
      && (v.clampTextMode == Unlimited ==> w.textPosition == v.textPosition.Plus(dx, dy))
  {
    CentroidShifted(StillDown(e), dx, dy);
  }

  /** Two fingers at (0,0) and (100,0) have their centroid at (50,0) */
  lemma PairCentroid()
    ensures Centroid([Point(0.0, 0.0), Point(100.0, 0.0)]) == Point(50.0, 0.0)
  {
    var both := [Point(0.0, 0.0), Point(100.0, 0.0)];
    var one := both[..1];
    assert one == [Point(0.0, 0.0)] && one[..0] == [];
    assert SumX(one) == 0.0;
    assert SumY(one) == 0.0;
    assert SumX(both) == 100.0;
    assert SumY(both) == 0.0;
  }

  /**
   As written, a second finger landing is not noticed: one finger down at
   (0,0), a second at (100,0), and a move that reports both where they are
   pans the text by (50,0).
   */
  lemma PointerDownJumpsAsWritten(v: View, host: Host)
    requires v.panEnabled && v.clampTextMode == Unlimited
    ensures var first := OnTouchEventAsWritten(v, MotionEvent(ACTION_DOWN, [Point(0.0, 0.0)]), host).step.view;
      var both := [Point(0.0, 0.0), Point(100.0, 0.0)];
      var second := OnTouchEventAsWritten(first, MotionEvent(ACTION_POINTER_DOWN + 256, both), host).step.view;
      var moved := OnTouchEventAsWritten(second, MotionEvent(ACTION_MOVE, both), host).step.view;
      moved.textPosition == v.textPosition.Plus(50.0, 0.0)
  {
    PairCentroid();
  }

  /**
   As written, a lifting finger still counts: with fingers at (0,0) and
   (100,0), the second lifting, and a move that reports the first where it
   is, the text pans by (-50,0).
   */
  lemma PointerUpJumpsAsWritten(v: View, host: Host)
    requires v.panEnabled && v.clampTextMode == Unlimited
    ensures var both := [Point(0.0, 0.0), Point(100.0, 0.0)];
      var placed := OnTouchEventAsWritten(v, MotionEvent(ACTION_MOVE, both), host).step.view;
      var lifted := OnTouchEventAsWritten(placed, MotionEvent(ACTION_POINTER_UP + 256, both), host).step.view;
      var moved := OnTouchEventAsWritten(lifted, MotionEvent(ACTION_MOVE, [Point(0.0, 0.0)]), host).step.view;
      moved.textPosition == placed.textPosition.Plus(-50.0, 0.0)
  {
    PairCentroid();
  }
}

=== FILE: single_text_view.dfy ===
/**
 The single-text widget of TextImageView.java: one multi-line text drawn over
 an image, resized by a pinch, turned by a two-finger rotation, and kept in
 place relative to the image by one of three clamp modes. The touch handling
 that pans it lives in SingleTextTouch.

 The view state is one immutable record; every operation returns the record
 after it, together with the position handed to the moved-listener, if any.
 */
module SingleTextView {
  import opened Wrappers
  import opened Graphics
  import JavaStrings

  /** TextImageView.ClampMode */
  datatype ClampMode = Unlimited | OriginInside | TextInside

  /**
   Matrix.preRotate(degrees, pivot) followed by mapRect: the axis-aligned box
   around a rotated rectangle. Trigonometry is a foreign computation, so the
   host supplies it; it is only consulted for a nonzero angle, where the
   matrix is not the identity.
   */
  type RectRotation = (RectF, real, Point) -> RectF

  /** The foreign calls the widget makes */
  datatype Host = Host(measure: TextMeasure, rotate: RectRotation)

  datatype View = View(
    text: string,
    textLines: seq<string>,
    paint: Paint,
    scale: real,
    minSize: real,
    size: real,
    maxSize: real,
    imageRect: RectF,          // refreshed by every draw from the image matrix
    textTotalRect: Rect,
    textRects: seq<Rect>,      // one measured rectangle per line
    textPosition: Point,       // top-left of the text, relative to the image
    rotationCenter: Point,
    interline: int,
    focalPoint: Point,
    rotation: real,
    previousRotation: real,
    panEnabled: bool,
    scaleEnabled: bool,
    rotationEnabled: bool,
    clampTextMode: ClampMode,
    listening: bool)           // an OnTextMovedListener is registered
  {
    /** One measured rectangle per line of text */
    predicate Valid() {
      |textRects| == |textLines|
    }

    /** The extra space between two lines at the current scale: interline*scale */
    function Gap(): real {
      interline as real * scale
    }
  }

  /** The view after an operation and the position handed to the moved-listener */
  datatype Step = Step(view: View, moved: Option<Point>)

  /** A step of a callback that also answers whether it handled the event */
  datatype Response = Response(step: Step, handled: bool)

  /*** Line layout ***/

  /** The vertical advance over some lines: each line's height plus the gap after it */
  function Advance(rects: seq<Rect>, gap: real): real
    decreases |rects|
  {
    if |rects| == 0 then 0.0 else rects[0].Height() as real + gap + Advance(rects[1..], gap)
  }

  function SumHeights(rects: seq<Rect>): int
    decreases |rects|
  {
    if |rects| == 0 then 0 else rects[0].Height() + SumHeights(rects[1..])
  }

  /** The advance over some lines is their total height plus one gap per line */
  lemma {:induction false} AdvanceIsSum(rects: seq<Rect>, gap: real)
    ensures Advance(rects, gap) == SumHeights(rects) as real + |rects| as real * gap
    decreases |rects|
  {
    if |rects| > 0 {
      AdvanceIsSum(rects[1..], gap);
    }
  }

  lemma AdvanceShift(rects: seq<Rect>, gap: real)
    requires |rects| > 0
    ensures forall i :: 1 <= i <= |rects| ==>
      Advance(rects[..i], gap) == rects[0].Height() as real + gap + Advance(rects[1..][..i - 1], gap)
  {
    forall i | 1 <= i <= |rects|
      ensures Advance(rects[..i], gap) == rects[0].Height() as real + gap + Advance(rects[1..][..i - 1], gap)
    {
      assert rects[..i][1..] == rects[1..][..i - 1];
    }
  }

  /**
   The rectangles of the lines before rotation, as the loop of
   calculateEnclosingRect builds them: every line starts at `left`, and the
   running `top` grows by the line's height plus the gap.
   */
  function LineBoxes(rects: seq<Rect>, left: real, top: real, gap: real): (boxes: seq<RectF>)
    ensures |boxes| == |rects|
    decreases |rects|
  {
    if |rects| == 0 then []
    else
      [RectF(left, top, left + rects[0].Width() as real, top + rects[0].Height() as real)]
        + LineBoxes(rects[1..], left, top + rects[0].Height() as real + gap, gap)
  }

  /** Line i starts at `left`, below the advance of the lines above it, and has its measured size */
  lemma {:induction false} LineBoxAt(rects: seq<Rect>, left: real, top: real, gap: real, i: nat)
    requires i < |rects|
    ensures LineBoxes(rects, left, top, gap)[i]
         == RectF(left, top + Advance(rects[..i], gap),
                  left + rects[i].Width() as real, top + Advance(rects[..i], gap) + rects[i].Height() as real)
    decreases i
  {
    if i > 0 {
      LineBoxAt(rects[1..], left, top + rects[0].Height() as real + gap, gap, i - 1);
      AdvanceShift(rects, gap);
    }
  }

  /**
   The line rectangles stack: all start at `left` with their line's measured
   size, the first at `top`, and each next one a gap below the bottom of the
   one before it.
   */
  lemma {:induction false} LineBoxesStack(rects: seq<Rect>, left: real, top: real, gap: real)
    ensures var boxes := LineBoxes(rects, left, top, gap);
      && (forall i :: 0 <= i < |boxes| ==>
            && boxes[i].left == left
            && boxes[i].Width() == rects[i].Width() as real
            && boxes[i].Height() == rects[i].Height() as real)
      && (|boxes| > 0 ==> boxes[0].top == top)
      && (forall i :: 0 < i < |boxes| ==> boxes[i].top == boxes[i - 1].bottom + gap)
    decreases |rects|
  {
    if |rects| > 0 {
      var next := top + rects[0].Height() as real + gap;
      LineBoxesStack(rects[1..], left, next, gap);
      var rest := LineBoxes(rects[1..], left, next, gap);
      assert LineBoxes(rects, left, top, gap)
          == [RectF(left, top, left + rects[0].Width() as real, top + rects[0].Height() as real)] + rest;
    }
  }

  /** All lines at once */
  lemma LineBoxesAt(rects: seq<Rect>, left: real, top: real, gap: real)
    ensures forall i :: 0 <= i < |rects| ==>
      LineBoxes(rects, left, top, gap)[i]
        == RectF(left, top + Advance(rects[..i], gap),
                 left + rects[i].Width() as real, top + Advance(rects[..i], gap) + rects[i].Height() as real)
  {
    forall i | 0 <= i < |rects|
      ensures LineBoxes(rects, left, top, gap)[i]
           == RectF(left, top + Advance(rects[..i], gap),
                    left + rects[i].Width() as real, top + Advance(rects[..i], gap) + rects[i].Height() as real)
    {
      LineBoxAt(rects, left, top, gap, i);
    }
  }

  /** The unrotated line rectangles of a view, in view coordinates */
  function Boxes(v: View): seq<RectF> {
    LineBoxes(v.textRects, v.imageRect.left + v.textPosition.x, v.imageRect.top + v.textPosition.y, v.Gap())
  }

  /** A line rectangle once the text's rotation about the rotation centre is applied */
  function Placed(v: View, host: Host, box: RectF): RectF {
    if v.rotation == 0.0 then box else host.rotate(box, -v.rotation, v.rotationCenter)
  }

  function PlacedBoxes(v: View, host: Host): (placed: seq<RectF>)
    ensures |placed| == |v.textRects|
    ensures forall i :: 0 <= i < |placed| ==> placed[i] == Placed(v, host, Boxes(v)[i])
  {
    var boxes := Boxes(v);
    seq(|boxes|, i requires 0 <= i < |boxes| => Placed(v, host, boxes[i]))
  }

  /** calculateEnclosingRect: the union of the placed line rectangles */
  function EnclosingRect(v: View, host: Host): (r: RectF)
    ensures |v.textRects| == 0 ==> r == EmptyRectF
  {
    Enclose(PlacedBoxes(v, host))
  }

  /**
   The enclosing rectangle covers every placed line, and each of its edges is
   the matching edge of some line.
   */
  lemma EnclosingBounds(v: View, host: Host)
    ensures var r, boxes := EnclosingRect(v, host), PlacedBoxes(v, host);
      && (forall i :: 0 <= i < |boxes| ==> r.Covers(boxes[i]))
      && (|boxes| > 0 ==> exists i :: 0 <= i < |boxes| && r.left == boxes[i].left)
      && (|boxes| > 0 ==> exists i :: 0 <= i < |boxes| && r.top == boxes[i].top)
      && (|boxes| > 0 ==> exists i :: 0 <= i < |boxes| && r.right == boxes[i].right)
      && (|boxes| > 0 ==> exists i :: 0 <= i < |boxes| && r.bottom == boxes[i].bottom)
  {
    EncloseBounds(PlacedBoxes(v, host));
  }

  /** Without rotation the enclosing rectangle is the union of the laid-out lines */
  lemma EnclosingAtRestIsUnion(v: View, host: Host)
    requires v.rotation == 0.0
    ensures EnclosingRect(v, host) == Enclose(Boxes(v))
  {
    PlacedAtRest(v, host);
  }

  /** The enclosing rectangle relative to the image's top-left corner */
  function LocalRect(v: View, host: Host): RectF {
    EnclosingRect(v, host).Offset(-v.imageRect.left, -v.imageRect.top)
  }

  /** The widest line's width */
  function WidestLine(rects: seq<Rect>): (w: int)
    requires |rects| > 0
    ensures forall i :: 0 <= i < |rects| ==> rects[i].Width() <= w
    ensures exists i :: 0 <= i < |rects| && rects[i].Width() == w
    decreases |rects|
  {
    if |rects| == 1 then rects[0].Width()
    else
      var w := WidestLine(rects[1..]);
      assert forall i :: 1 <= i < |rects| ==> rects[i] == rects[1..][i - 1];
      if rects[0].Width() >= w then rects[0].Width() else w
  }

  /**
   Line i of an unrotated text starts at the text's left edge and at
   textPosition.y plus the heights and gaps of the lines above it.
   */
  lemma LineLayout(v: View, i: nat)
    requires i < |v.textRects|
    ensures Boxes(v)[i].Offset(-v.imageRect.left, -v.imageRect.top).left == v.textPosition.x
    ensures Boxes(v)[i].Offset(-v.imageRect.left, -v.imageRect.top).top
         == v.textPosition.y + SumHeights(v.textRects[..i]) as real + i as real * v.Gap()
    ensures Boxes(v)[i].Width() == v.textRects[i].Width() as real
    ensures Boxes(v)[i].Height() == v.textRects[i].Height() as real
  {
    LineBoxAt(v.textRects, v.imageRect.left + v.textPosition.x, v.imageRect.top + v.textPosition.y, v.Gap(), i);
    AdvanceIsSum(v.textRects[..i], v.Gap());
  }

  lemma {:induction false} AdvanceNonNegative(rects: seq<Rect>, gap: real)
    requires forall j :: 0 <= j < |rects| ==> rects[j].Height() as real + gap >= 0.0
    ensures Advance(rects, gap) >= 0.0
    decreases |rects|
  {
    if |rects| > 0 {
      assert forall j :: 0 <= j < |rects| - 1 ==> rects[1..][j] == rects[j + 1];
      AdvanceNonNegative(rects[1..], gap);
    }
  }

  /** Without rotation the line rectangles are placed as laid out */
  lemma PlacedAtRest(v: View, host: Host)
    requires v.rotation == 0.0
    ensures PlacedBoxes(v, host) == Boxes(v)
  {
  }

  /** No line plus its gap has negative height */
  predicate Descending(v: View) {
    forall j :: 0 <= j < |v.textRects| ==> v.textRects[j].Height() as real + v.Gap() >= 0.0
  }

  /**
   An unrotated text's enclosing rectangle starts at textPosition, and is as
   wide as its widest line; its top is textPosition.y whenever no line plus
   its gap has negative height.
   */
  lemma EnclosingAtRest(v: View, host: Host)
    requires v.rotation == 0.0 && |v.textRects| > 0
    ensures LocalRect(v, host).left == v.textPosition.x
    ensures LocalRect(v, host).Width() == WidestLine(v.textRects) as real
    ensures Descending(v) ==> LocalRect(v, host).top == v.textPosition.y
  {
    var e := EnclosingRect(v, host);
    var left := v.imageRect.left + v.textPosition.x;
    var top := v.imageRect.top + v.textPosition.y;
    PlacedAtRest(v, host);
    LineBoxesAt(v.textRects, left, top, v.Gap());
    assert v.textRects[..0] == [];
    EnclosingLeftAtRest(v, host, e, left);
    EnclosingRightAtRest(v, host, e, left);
    if Descending(v) {
      EnclosingTopAtRest(v, host, e, top);
    }
  }

  lemma EnclosingLeftAtRest(v: View, host: Host, e: RectF, left: real)
    requires |v.textRects| > 0 && e == EnclosingRect(v, host) && PlacedBoxes(v, host) == Boxes(v)
    requires forall i :: 0 <= i < |v.textRects| ==> Boxes(v)[i].left == left
    ensures e.left == left
  {
    EnclosingBounds(v, host);
  }

  lemma EnclosingRightAtRest(v: View, host: Host, e: RectF, left: real)
    requires |v.textRects| > 0 && e == EnclosingRect(v, host) && PlacedBoxes(v, host) == Boxes(v)
    requires forall i :: 0 <= i < |v.textRects| ==> Boxes(v)[i].left == left
    requires forall i :: 0 <= i < |v.textRects| ==> Boxes(v)[i].right == left + v.textRects[i].Width() as real
    ensures e.right == left + WidestLine(v.textRects) as real
  {
    EnclosingBounds(v, host);
    var w := WidestLine(v.textRects);
    var m :| 0 <= m < |v.textRects| && v.textRects[m].Width() == w;
    assert e.right >= Boxes(v)[m].right;
  }

  lemma EnclosingTopAtRest(v: View, host: Host, e: RectF, top: real)
    requires |v.textRects| > 0 && e == EnclosingRect(v, host) && PlacedBoxes(v, host) == Boxes(v)
    requires Descending(v)
    requires forall i :: 0 <= i < |v.textRects| ==> Boxes(v)[i].top == top + Advance(v.textRects[..i], v.Gap())
    ensures e.top == top
  {
    EnclosingBounds(v, host);
    var t :| 0 <= t < |v.textRects| && e.top == Boxes(v)[t].top;
    AdvanceNonNegative(v.textRects[..t], v.Gap());
    assert v.textRects[..0] == [];
    assert e.top <= Boxes(v)[0].top;
  }

  /** Laying the lines out from a moved corner moves every line rectangle by as much */
  lemma {:induction false} LineBoxesOffset(rects: seq<Rect>, left: real, top: real, gap: real, dx: real, dy: real)
    ensures LineBoxes(rects, left + dx, top + dy, gap) == OffsetAll(LineBoxes(rects, left, top, gap), dx, dy)
    decreases |rects|
  {
    if |rects| > 0 {
      var next := top + rects[0].Height() as real + gap;
      LineBoxesOffset(rects[1..], left, next, gap, dx, dy);
      assert top + dy + rects[0].Height() as real + gap == next + dy;
    }
  }

  /** Moving a text moves each of its unrotated line rectangles by the same amount */
  lemma BoxesMove(v: View, p: Point)
    ensures Boxes(v.(textPosition := p)) == OffsetAll(Boxes(v), p.x - v.textPosition.x, p.y - v.textPosition.y)
  {
    var u := v.(textPosition := p);
    var dx, dy := p.x - v.textPosition.x, p.y - v.textPosition.y;
    var rects, gap := v.textRects, v.Gap();
    assert u.textRects == rects && u.Gap() == gap;
    var lv, tv := v.imageRect.left + v.textPosition.x, v.imageRect.top + v.textPosition.y;
    assert u.imageRect.left + p.x == lv + dx && u.imageRect.top + p.y == tv + dy;
    LineBoxesOffset(rects, lv, tv, gap, dx, dy);
  }

  /** Moving an unrotated text moves its enclosing rectangle by the same amount */
  lemma EnclosingMoves(v: View, host: Host, p: Point)
    requires v.rotation == 0.0 && |v.textRects| > 0
    ensures EnclosingRect(v.(textPosition := p), host)
         == EnclosingRect(v, host).Offset(p.x - v.textPosition.x, p.y - v.textPosition.y)
  {
    EnclosingAtRestIsUnion(v, host);
    EnclosingAtRestIsUnion(v.(textPosition := p), host);
    BoxesMove(v, p);
    EncloseOffset(Boxes(v), p.x - v.textPosition.x, p.y - v.textPosition.y);
  }

  /*** Position and clamping ***/

  /**
   getTextPosition: the enclosing rectangle's top-left corner as a fraction
   of the image's size; (0,0) is the image's top-left corner and (1,1) its
   bottom-right one.
   */
  function TextPosition(v: View, host: Host): (p: FloatPoint)
    ensures p.x.Finite? <==> v.imageRect.Width() != 0.0
    ensures p.y.Finite? <==> v.imageRect.Height() != 0.0
    ensures p.x.Finite? ==> p.x.value * v.imageRect.Width() == LocalRect(v, host).left
    ensures p.y.Finite? ==> p.y.value * v.imageRect.Height() == LocalRect(v, host).top
  {
    var e, w, h := LocalRect(v, host), v.imageRect.Width(), v.imageRect.Height();
    var q := PerOne(Point(e.left, e.top), w, h);
    assert q.x.Finite? ==> q.x.value * w == e.left;
    assert q.y.Finite? ==> q.y.value * h == e.top;
    q
  }

  /** An unrotated text at (100,50) over a 1000x500 image reports (0.1, 0.1) */
  lemma TextPositionExample(v: View, host: Host)
    requires v.rotation == 0.0 && |v.textRects| > 0
    requires Descending(v)
    requires v.textPosition == Point(100.0, 50.0) && v.imageRect == RectF(0.0, 0.0, 1000.0, 500.0)
    ensures TextPosition(v, host) == FloatPoint(Finite(0.1), Finite(0.1))
  {
    EnclosingAtRest(v, host);
  }

  /** reclampText's guard as the source writes it: only a NaN component holds the listener back */
  function NotifyAsWritten(p: FloatPoint): (r: Option<FloatPoint>)
    ensures r.Some? <==> !p.x.NaN? && !p.y.NaN?
    ensures r.Some? ==> r.value == p
  {
    if !p.x.NaN? && !p.y.NaN? then Some(p) else None
  }

  /** The guard as intended: the listener only ever receives a finite position */
  function Notify(p: FloatPoint): (r: Option<Point>)
    ensures r.Some? <==> p.x.Finite? && p.y.Finite?
    ensures r.Some? ==> p == FloatPoint(Finite(r.value.x), Finite(r.value.y))
  {
    if p.x.Finite? && p.y.Finite? then Some(Point(p.x.value, p.y.value)) else None
  }

  /**
   `y` is `x` pulled into [0, hi] by the shortest move, or 0 when that range
   is empty.
   */
  predicate PulledInto(x: real, y: real, hi: real) {
    && (0.0 <= x <= hi ==> y == x)
    && (x < 0.0 <= hi ==> y == 0.0)
    && (0.0 <= hi < x ==> y == hi)
    && (hi < 0.0 ==> y == 0.0)
  }

  /**
   The corrected textPosition of reclampText's switch: the text moves by as
   much as its rectangle relative to the image must move for its top-left
   corner (ORIGIN_INSIDE) or the whole of it (TEXT_INSIDE) to lie inside the
   image.
   */
  function ClampedPosition(v: View, host: Host): (p: Point)
    ensures v.clampTextMode == Unlimited ==> p == v.textPosition
    ensures v.clampTextMode == OriginInside ==>
      var e, dx, dy := LocalRect(v, host), p.x - v.textPosition.x, p.y - v.textPosition.y;
      && PulledInto(e.left, e.left + dx, v.imageRect.Width())
      && PulledInto(e.top, e.top + dy, v.imageRect.Height())
    ensures v.clampTextMode == TextInside ==>
      var e, dx, dy := LocalRect(v, host), p.x - v.textPosition.x, p.y - v.textPosition.y;
      && PulledInto(e.left, e.left + dx, v.imageRect.Width() - e.Width())
      && PulledInto(e.top, e.top + dy, v.imageRect.Height() - e.Height())
  {
    match v.clampTextMode
    case Unlimited => v.textPosition
    case OriginInside =>
      var e := LocalRect(v, host);
      Point(v.textPosition.x - (e.left - Between(e.left, 0.0, v.imageRect.Width())),
            v.textPosition.y - (e.top - Between(e.top, 0.0, v.imageRect.Height())))
    case TextInside =>
      var e := LocalRect(v, host);
      Point(v.textPosition.x - (e.left - Between(e.left, 0.0, v.imageRect.Width() - e.Width())),
            v.textPosition.y - (e.top - Between(e.top, 0.0, v.imageRect.Height() - e.Height())))
  }

  /**
   reclampText: pulls the text back towards the image as the clamp mode asks,
   then tells the listener the new position. Only textPosition changes; the
   listener hears of it exactly when the image has an area, and receives what
   getTextPosition returns.
   */
  function Reclamp(v: View, host: Host): (s: Step)
    ensures s.view == v.(textPosition := s.view.textPosition)
    ensures s.view.textPosition == ClampedPosition(v, host)
    ensures v.clampTextMode == Unlimited ==> s.view == v
    ensures s.moved.Some? <==> v.listening && v.imageRect.Width() != 0.0 && v.imageRect.Height() != 0.0
    ensures s.moved.Some? ==> TextPosition(s.view, host) == FloatPoint(Finite(s.moved.value.x), Finite(s.moved.value.y))
  {
    var u := v.(textPosition := ClampedPosition(v, host));
    Step(u, if v.listening then Notify(TextPosition(u, host)) else None)
  }

  /**
   As written, an image without an area lets infinities through: an
   unrotated, unclamped text right of and below the view's origin over an
   image of size zero stays where it is (Reclamp changes nothing in this
   mode), and the source's guard passes its position (+Infinity, +Infinity) to
   the listener, where the corrected guard in Reclamp holds it back.
   */
  lemma InfinityPassesGuardAsWritten(v: View, host: Host)
    requires v.rotation == 0.0 && |v.textRects| > 0 && Descending(v) && v.clampTextMode == Unlimited
    requires v.imageRect == EmptyRectF && v.textPosition.x > 0.0 && v.textPosition.y > 0.0
    ensures Reclamp(v, host).view == v
    ensures NotifyAsWritten(TextPosition(v, host)) == Some(FloatPoint(PositiveInfinity, PositiveInfinity))
  {
    InfiniteOverNoImage(v, host);
    GuardPassesInfinity(TextPosition(v, host));
  }

  lemma InfiniteOverNoImage(v: View, host: Host)
    requires v.rotation == 0.0 && |v.textRects| > 0 && Descending(v)
    requires v.imageRect == EmptyRectF && v.textPosition.x > 0.0 && v.textPosition.y > 0.0
    ensures TextPosition(v, host) == FloatPoint(PositiveInfinity, PositiveInfinity)
  {
    EnclosingAtRest(v, host);
  }

  lemma GuardPassesInfinity(p: FloatPoint)
    requires p == FloatPoint(PositiveInfinity, PositiveInfinity)
    ensures NotifyAsWritten(p) == Some(p) && Notify(p) == None
  {
  }

  /**
   With ORIGIN_INSIDE, an unrotated text's top-left corner ends up inside the
   image: each coordinate is clamped into [0, width] and [0, height].
   */
  lemma ReclampOriginInside(v: View, host: Host)
    requires v.rotation == 0.0 && |v.textRects| > 0 && v.clampTextMode == OriginInside
    ensures LocalRect(Reclamp(v, host).view, host).left == Between(LocalRect(v, host).left, 0.0, v.imageRect.Width())
    ensures LocalRect(Reclamp(v, host).view, host).top == Between(LocalRect(v, host).top, 0.0, v.imageRect.Height())
    ensures 0.0 <= v.imageRect.Width() ==> 0.0 <= LocalRect(Reclamp(v, host).view, host).left <= v.imageRect.Width()
    ensures 0.0 <= v.imageRect.Height() ==> 0.0 <= LocalRect(Reclamp(v, host).view, host).top <= v.imageRect.Height()
  {
    EnclosingMoves(v, host, Reclamp(v, host).view.textPosition);
  }

  /**
   With TEXT_INSIDE, an unrotated text that fits the image ends up wholly
   inside it; one wider or taller than the image is pinned to its left or top
   edge.
   */
  lemma ReclampTextInside(v: View, host: Host)
    requires v.rotation == 0.0 && |v.textRects| > 0 && v.clampTextMode == TextInside
    ensures var e, e' := LocalRect(v, host), LocalRect(Reclamp(v, host).view, host);
      && e'.Width() == e.Width() && e'.Height() == e.Height()
      && (e.Width() <= v.imageRect.Width() ==> 0.0 <= e'.left && e'.right <= v.imageRect.Width())
      && (e.Height() <= v.imageRect.Height() ==> 0.0 <= e'.top && e'.bottom <= v.imageRect.Height())
      && (e.Width() > v.imageRect.Width() ==> e'.left == 0.0)
      && (e.Height() > v.imageRect.Height() ==> e'.top == 0.0)
  {
    EnclosingMoves(v, host, Reclamp(v, host).view.textPosition);
  }

  /** Clamping an unrotated text a second time changes nothing, in every mode */
  lemma ReclampIdempotent(v: View, host: Host)
    requires v.rotation == 0.0 && |v.textRects| > 0
    ensures Reclamp(Reclamp(v, host).view, host).view == Reclamp(v, host).view
  {
    var u := Reclamp(v, host).view;
    assert u == v.(textPosition := ClampedPosition(v, host));
    ClampedIsFixed(v, host);
    assert Reclamp(u, host).view == u.(textPosition := ClampedPosition(u, host));
  }

  /** The clamped position of an unrotated text is already clamped */
  lemma ClampedIsFixed(v: View, host: Host)
    requires v.rotation == 0.0 && |v.textRects| > 0
    ensures var u := v.(textPosition := ClampedPosition(v, host));
      ClampedPosition(u, host) == u.textPosition
  {
    var p := ClampedPosition(v, host);
    var u := v.(textPosition := p);
    LocalMoves(v, host, p);
    var e := LocalRect(v, host);
    var w, h := v.imageRect.Width(), v.imageRect.Height();
    match v.clampTextMode
    case Unlimited =>
    case OriginInside =>
      BetweenIdempotent(e.left, 0.0, w);
      BetweenIdempotent(e.top, 0.0, h);
    case TextInside =>
      BetweenIdempotent(e.left, 0.0, w - e.Width());
      BetweenIdempotent(e.top, 0.0, h - e.Height());
  }

  /** Moving an unrotated text moves its rectangle relative to the image by as much, keeping its size */
  lemma LocalMoves(v: View, host: Host, p: Point)
    requires v.rotation == 0.0 && |v.textRects| > 0
    ensures var e, e' := LocalRect(v, host), LocalRect(v.(textPosition := p), host);
      && e'.left == e.left + (p.x - v.textPosition.x) && e'.top == e.top + (p.y - v.textPosition.y)
      && e'.Width() == e.Width() && e'.Height() == e.Height()
  {
    EnclosingMoves(v, host, p);
  }

  /**
   Without lines the enclosing rectangle stays the empty one at the view's
   origin, so ORIGIN_INSIDE over an image whose left edge is right of the
   view's moves the invisible text further right on every call.
   */
  lemma ReclampDriftsWithoutLines(v: View, host: Host)
    requires |v.textRects| == 0 && v.clampTextMode == OriginInside
    requires v.imageRect.left > 0.0 && v.imageRect.Width() >= 0.0
    ensures Reclamp(v, host).view.textPosition.x == v.textPosition.x + v.imageRect.left
  {
  }

  /*** Text, size and style ***/

  /** The rectangle of every line, measured with the current paint */
  function MeasureLines(lines: seq<string>, paint: Paint, host: Host): (rects: seq<Rect>)
    ensures |rects| == |lines|
    ensures forall i :: 0 <= i < |lines| ==> rects[i] == host.measure(lines[i], paint)
  {
    seq(|lines|, i requires 0 <= i < |lines| => host.measure(lines[i], paint))
  }

  /** Java's (int) cast of a float, apart from its saturation at the int range: rounds towards zero */
  function TruncateToInt(x: real): (n: int)
    ensures x >= 0.0 ==> 0 <= n && n as real <= x < n as real + 1.0
    ensures x < 0.0 ==> n <= 0 && n as real - 1.0 < x <= n as real
  {
    if x >= 0.0 then x.Floor else -((-x).Floor)
  }

  /**
   textTotalRect: as wide as the widest line (never less than 0) and as high
   as the lines plus the gaps between them, truncated to an int.
   */
  function TotalRect(rects: seq<Rect>, interline: int, scale: real): (r: Rect)
    ensures r.left == 0 && r.top == 0 && r.right >= 0
    ensures forall i :: 0 <= i < |rects| ==> rects[i].Width() <= r.right
    ensures r.right == 0 || exists i :: 0 <= i < |rects| && rects[i].Width() == r.right
    ensures r.bottom == TruncateToInt(SumHeights(rects) as real + ((|rects| - 1) * interline) as real * scale)
  {
    var width := if |rects| == 0 then 0 else if WidestLine(rects) > 0 then WidestLine(rects) else 0;
    Rect(0, 0, width, TruncateToInt(SumHeights(rects) as real + ((|rects| - 1) * interline) as real * scale))
  }

  /**
   The fields setText derives from the text agree with it: the lines are the
   text split at line feeds, each has the rectangle the paint measures for it,
   and textTotalRect is their total at the current gap.
   */
  predicate Measured(v: View, host: Host) {
    && v.textLines == JavaStrings.Split(v.text)
    && |v.textRects| == |v.textLines|
    && (forall i :: 0 <= i < |v.textRects| ==> v.textRects[i] == host.measure(v.textLines[i], v.paint))
    && v.textTotalRect == TotalRect(v.textRects, v.interline, v.scale)
  }

  /**
   setText: splits the text into lines, measures each line with the current
   paint, then reclamps from the position the text had. Nothing but the text,
   its lines, their rectangles, their total and the clamped position changes.
   */
  function SetText(v: View, text: string, host: Host): (s: Step)
    ensures s.view.Valid()
    ensures s.view.text == text && Measured(s.view, host)
    ensures s.view.(text := v.text, textLines := v.textLines, textRects := v.textRects,
                    textTotalRect := v.textTotalRect, textPosition := v.textPosition) == v
    ensures s == Reclamp(s.view.(textPosition := v.textPosition), host)
  {
    var lines := JavaStrings.Split(text);
    var rects := MeasureLines(lines, v.paint, host);
    Reclamp(v.(text := text, textLines := lines, textRects := rects,
               textTotalRect := TotalRect(rects, v.interline, v.scale)), host)
  }

  /** setText leaves the paint and the sizes alone */
  lemma SetTextKeepsSizing(v: View, text: string, host: Host)
    ensures var u := SetText(v, text, host).view;
      u.size == v.size && u.scale == v.scale && u.paint == v.paint && u.text == text
  {
  }

  /** setTypeface: a new typeface changes the glyphs, so the text is measured again */
  function SetTypeface(v: View, typeface: Option<Typeface>, host: Host): (s: Step)
    ensures s.view.paint == v.paint.(typeface := typeface)
    ensures s.view.Valid() && s.view.text == v.text && Measured(s.view, host)
    ensures s.view.(paint := v.paint, textLines := v.textLines, textRects := v.textRects,
                    textTotalRect := v.textTotalRect, textPosition := v.textPosition) == v
    ensures s == Reclamp(s.view.(textPosition := v.textPosition), host)
  {
    SetText(v.(paint := v.paint.(typeface := typeface)), v.text, host)
  }

  /** setTextColor: the colour is all that changes */
  function SetTextColor(v: View, color: int): (u: View)
    ensures u.paint.color == color
    ensures u.(paint := v.paint) == v && u.paint.(color := v.paint.color) == v.paint
  {
    v.(paint := v.paint.(color := color))
  }

  /** setTextSize: a new base size, with the pinch scale back to 1, and the text measured again */
  function SetTextSize(v: View, textSize: real, host: Host): (s: Step)
    ensures s.view.scale == 1.0 && s.view.size == textSize && s.view.paint == v.paint.(textSize := textSize)
    ensures s.view.paint.textSize == s.view.scale * s.view.size
    ensures s.view.Valid() && s.view.text == v.text && Measured(s.view, host)
    ensures s.view.(scale := v.scale, size := v.size, paint := v.paint, textLines := v.textLines,
                    textRects := v.textRects, textTotalRect := v.textTotalRect, textPosition := v.textPosition) == v
    ensures s == Reclamp(s.view.(textPosition := v.textPosition), host)
  {
    SetText(v.(scale := 1.0, size := textSize, paint := v.paint.(textSize := textSize)), v.text, host)
  }

  /*** Gestures ***/

  /**
   The size arithmetic of onScale: the font size the new scale asks for,
   clamped to [minSize, maxSize], and the scale that size corresponds to.
   */
  function Rescale(scale: real, factor: real, size: real, minSize: real, maxSize: real): (r: (real, real))
    requires size != 0.0
    ensures r.1 == r.0 * size
    ensures minSize <= maxSize ==> minSize <= r.1 <= maxSize
    ensures maxSize < minSize ==> r.1 == minSize
    ensures minSize <= scale * factor * size <= maxSize ==> r.0 == scale * factor
  {
    var textSize := Between(scale * factor * size, minSize, maxSize);
    (textSize / size, textSize)
  }

  /**
   onScale: multiplies the scale by the pinch factor, keeps the resulting font
   size within [minSize, maxSize], and re-derives the scale from the size the
   paint took. The callback always accepts the gesture.
   */
  function OnScale(v: View, scaleFactor: real, host: Host): (r: Response)
    requires v.size != 0.0
    ensures r.handled
    ensures !v.scaleEnabled ==> r.step == Step(v, None)
    ensures v.scaleEnabled ==> r.step.view.size == v.size && r.step.view.Valid() && r.step.view.text == v.text
    ensures v.scaleEnabled ==>
      (r.step.view.scale, r.step.view.paint.textSize) == Rescale(v.scale, scaleFactor, v.size, v.minSize, v.maxSize)
    ensures v.scaleEnabled ==> r.step.view.paint == v.paint.(textSize := r.step.view.paint.textSize)
    ensures v.scaleEnabled ==> Measured(r.step.view, host)
    ensures v.scaleEnabled ==>
      r.step.view.(scale := v.scale, paint := v.paint, textLines := v.textLines, textRects := v.textRects,
                   textTotalRect := v.textTotalRect, textPosition := v.textPosition) == v
    ensures v.scaleEnabled ==> r.step == Reclamp(r.step.view.(textPosition := v.textPosition), host)
  {
    if !v.scaleEnabled then Response(Step(v, None), true)
    else
      var sized := Rescale(v.scale, scaleFactor, v.size, v.minSize, v.maxSize);
      var u := v.(scale := sized.0, paint := v.paint.(textSize := sized.1));
      var s := SetText(u, u.text, host);
      SetTextKeepsSizing(u, u.text, host);
      Response(s, true)
  }

  /**
   OnRotation: adds the change of the detector's angle since the previous
   update and pivots about the focal point. The difference between the
   accumulated rotation and the last angle seen never changes.
   */
  function OnRotation(v: View, angle: real): (u: View)
    ensures !v.rotationEnabled ==> u == v
    ensures v.rotationEnabled ==> u.previousRotation == angle && u.rotationCenter == v.focalPoint
    ensures u.rotation - u.previousRotation == v.rotation - v.previousRotation
    ensures u.(rotation := v.rotation, previousRotation := v.previousRotation, rotationCenter := v.rotationCenter) == v
  {
    if !v.rotationEnabled then v
    else v.(rotation := v.rotation + (angle - v.previousRotation), previousRotation := angle,
            rotationCenter := v.focalPoint)
  }

  /** A run of rotation updates, in the order the detector reports them */
  function RotateThrough(v: View, angles: seq<real>): View
    decreases |angles|
  {
    if |angles| == 0 then v else RotateThrough(OnRotation(v, angles[0]), angles[1..])
  }

  /**
   The rotation telescopes: after any run of updates it is the starting
   rotation plus the last angle minus the angle remembered before the run.
   */
  lemma {:induction false} RotationTelescopes(v: View, angles: seq<real>)
    requires v.rotationEnabled && |angles| > 0
    ensures RotateThrough(v, angles).rotation == v.rotation + angles[|angles| - 1] - v.previousRotation
    ensures RotateThrough(v, angles).previousRotation == angles[|angles| - 1]
    ensures RotateThrough(v, angles).rotationCenter == v.focalPoint
    decreases |angles|
  {
    if |angles| > 1 {
      RotationTelescopes(OnRotation(v, angles[0]), angles[1..]);
    }
  }
}

=== FILE: text_layers.dfy ===
/**
 TextProperties.kt and Text.kt: one text layer of the multi-text widget, and
 the snapshot of it that listeners and callers receive.
 */
module TextLayers {
  import opened Wrappers
  import opened Graphics

  /**
   TextProperties: a text, its own paint, its position in view pixels, its
   scale factor, its rotation in degrees and the bounds of its glyphs as last
   measured. The transformation matrix the source also keeps is derived from
   these fields whenever one of them changes, so it is not stored here.
   */
  datatype TextProperties = TextProperties(
    text: string,
    paint: Paint,
    position: Point,
    scaleFactor: real,
    rotationDegrees: real,
    boundingRect: Rect)
  {
    /**
     toText: the snapshot a listener sees, with the position as a fraction
     of the view's measured size. Kotlin divides a Float by an Int in float
     arithmetic, so a zero size gives an infinity or NaN, not an exception.
     */
    function ToText(w: int, h: int): (t: Text)
      ensures t.text == text && t.scaleFactor == scaleFactor && t.rotationDegrees == rotationDegrees
      ensures t.position.x.Finite? <==> w != 0
      ensures t.position.y.Finite? <==> h != 0
      ensures t.position.x.Finite? ==> t.position.x.value * w as real == position.x
      ensures t.position.y.Finite? ==> t.position.y.value * h as real == position.y
    {
      Text(text, PerOne(position, w as real, h as real), scaleFactor, rotationDegrees)
    }
  }

  /** The size the layer's glyphs are drawn at: the paint's text size under the layer's scale */
  function DrawnTextSize(tp: TextProperties): real {
    tp.scaleFactor * tp.paint.textSize
  }

  /** Text: the public snapshot of a layer */
  datatype Text = Text(text: string, position: FloatPoint, scaleFactor: real, rotationDegrees: real)

  /**
   `TextProperties(text)` whose paint's text size was then set: the default
   paint, the origin, scale 1, no rotation and empty bounds.
   */
  function NewTextProperties(text: string, textSize: real): (tp: TextProperties)
    ensures tp.text == text && tp.paint == NewPaint(textSize)
    ensures tp.position == Point(0.0, 0.0) && tp.scaleFactor == 1.0 && tp.rotationDegrees == 0.0
    ensures tp.boundingRect == Rect(0, 0, 0, 0)
  {
    TextProperties(text, NewPaint(textSize), Point(0.0, 0.0), 1.0, 0.0, Rect(0, 0, 0, 0))
  }

  /**
   A position given as a fraction of the view's size, stored in pixels and
   read back with toText, is the fraction it was given, as long as the view
   has an area.
   */
  lemma FractionRoundTrip(tp: TextProperties, p: Point, w: int, h: int)
    requires w != 0 && h != 0
    ensures tp.(position := Point(p.x * w as real, p.y * h as real)).ToText(w, h).position
            == FloatPoint(Finite(p.x), Finite(p.y))
  {
  }

  /** Reading a pixel position as a fraction and scaling it back gives the pixel position */
  lemma PixelRoundTrip(tp: TextProperties, w: int, h: int)
    requires w != 0 && h != 0
    ensures var q := tp.ToText(w, h).position;
      q.x.Finite? && q.y.Finite? && Point(q.x.value * w as real, q.y.value * h as real) == tp.position
  {
  }
}

=== FILE: wrappers.dfy ===
/** Optional values: the model's stand-in for a nullable reference. */
module Wrappers {

  datatype Option<+T> = None | Some(value: T) {

    /** Returns the value held by Some, or a default for None */
    function GetOr(default: T): T {
      match this
      case Some(v) => v
      case None => default
    }
  }
}
